=== FILE: README.md ===
# confluentacl provider kernel, in Dafny

This project models the client kernel of `terraform-provider-confluentacl`. That
is a Terraform provider that manages Kafka ACLs and API keys on Confluent
Cloud. The model covers:

- **Request descriptor** (`Request`). It is a value that accumulates URL
  segments, a method, a body and a query map, and carries either a Basic
  or a Bearer `Authorization` header. `Execute` prepares one HTTP request
  and reads one answer. `ExecuteAndRetryOn429` runs the fixed backoff
  schedule 0, 100, 200, 400, 800, 1600, 3200 ms and stops at the first
  answer that is not 429.
- **Bearer-token cache** (`Client`). A token is reused while it is non-empty,
  has an expiry, and that expiry is more than five minutes away. Otherwise
  it is refreshed by a POST to `access_tokens`. The new expiry is the `exp`
  claim of the token's second `.`-separated segment, decoded with unpadded
  standard base64.
- **Service-account cache** (`ServiceAccounts`). This is a write-once cache
  entry `serviceAccounts`, plus the last-match lookup of a numeric user id
  by service name.
- **Per-endpoint status tables, paths, bodies and queries** for API keys
  (`ApiKeys`) and ACLs (`Acls`).
- **Terraform-side adapter logic.**
  - The ACL resource (`AclResource`): enum and `lkc-` validators, the
    `User:<id>` principal, the composite id, and the read rule for zero, one
    or several matching ACLs.
  - The API-key resource (`ApiKeyResource`): the `""`/`"--"` description
    normalisation.
  - Provider configuration (`Provider`): credentials come from the
    configuration, else from the environment.

**How the outside world is represented**

- The network is a function from the attempt number to an `Outcome`. An
  outcome is either a transport failure, or a status together with the
  decoded body. `None` stands for a body that does not decode.
- The token refresh receives its network and its JSON `exp` reader as a
  `TokenSource`.
- The clock is a parameter `now`, in Unix nanoseconds.
- Sleeps are recorded as a list of durations, not performed.
- Go panics that the code can reach become the error `Panic(cause)`. These
  are: indexing a token without a dot, undecodable claims, and resolving
  against a nil URL. A panic ends the plugin process, so a resource operation
  that meets one writes no state, loses the diagnostics it had gathered, and
  leaves only Terraform's "Plugin did not respond" report.
- Every client operation returns a `Step`: its result, the client afterwards
  (token and cache), and the requests it handed to the retry loop.
- Resource operations return an `Effect`: the state written, the
  diagnostics, the client, and the requests sent.

The supporting modules model the pieces of the Go standard library that the
code relies on:

- UTF-8 encoding, `strconv.Itoa`, and `strings.Split`/`Join` (`Text`);
- base64 `StdEncoding`/`RawStdEncoding` (`Base64`, section 4 and
  section 3.2 of RFC 4648);
- a scheme/host/path subset of `net/url` parsing and reference resolution
  (`Url`).

The schedule sums to 6300 ms (`Request.AlwaysRateLimited`).

## Model

| member | source | states |
|---|---|---|
| Text.Split | internal/client/access_token.go:56 | `strings.Split` on a one-character separator yields at least one piece, and no piece contains the separator |
| Text.SplitJoin | internal/resource_acl.go:250-262 | joining separator-free pieces with a one-character separator and splitting again gives exactly those pieces |
| Text.JoinSplit | internal/client/access_token.go:56 | splitting a token at `.` and joining the pieces again gives the token back, so the split loses nothing |
| Text.SecondPiece | internal/client/access_token.go:56 | in `a.b.c` where `a` and `b` hold no dot, the piece at index 1 is `b`, so the middle segment of a well-formed token is its claims |
| Text.DecimalRoundTrip | internal/resource_api_key.go:111 | the decimal text `strconv.Itoa` produces reads back as the same integer, negative ids included |
| Text.DecimalInjective | internal/resource_api_key.go:111 | distinct numeric key ids get distinct decimal ids |
| Base64.EncodeRaw | internal/client/request/request.go:25 | the unpadded encoding of n bytes has ceil(4n/3) characters |
| Base64.EncodeRawInAlphabet | internal/client/request/request.go:25 | every character of the unpadded encoding belongs to the standard alphabet |
| Base64.Group3 | internal/client/request/request.go:25 | three bytes become four characters whose 6-bit values are the bytes' bits, most significant first |
| Base64.DecodeThreeBytes | internal/client/access_token.go:58 | the four characters of a full group decode back to its three bytes, whatever follows |
| Base64.Encode | internal/client/request/request.go:25 | the padded `StdEncoding` output is a whole number of 4-character groups |
| Base64.PaddedLength | internal/client/request/request.go:25 | the `=` padding completes the unpadded length of any byte count to a multiple of 4 |
| Base64.DecodeRawEncodeRaw | internal/client/access_token.go:58-61 | `RawStdEncoding` decoding inverts unpadded encoding for every byte string, so well-formed claims never hit the decode panic |
| Base64.DecodePaddedEncoding | internal/client/request/request.go:24-26 | the padded encoding is the unpadded one followed only by `=`: the Basic credentials can be recovered exactly |
| Base64.NonAlphabetRejected | internal/client/access_token.go:58-61 | `RawStdEncoding` rejects any string holding a character outside the standard alphabet other than a line break |
| Url.ResolveReference | internal/client/request/request.go:152 | resolving against the nil URL fails exactly when the reference has no scheme; a reference with a scheme replaces the base |
| Url.PanicIsFinal | internal/client/request/request.go:147-153 | once resolution has panicked, no later segment can recover it |
| Url.RelativeFirstSegmentPanics | internal/client/request/request.go:144-153 | a first segment without a scheme is resolved against the nil URL and the whole resolution fails |
| Url.AbsoluteFirstSegmentResolves | internal/client/request/request.go:144-154 | a first segment with a scheme makes the resolution of any segment list succeed |
| Url.AbsoluteSegmentOverrides | internal/client/request/request.go:147-153 | a segment carrying its own scheme discards every segment before it |
| Url.BareBaseAddsSlash | internal/client/request/request.go:144-154 | a base URL with no path, such as `https://h:443`, followed by a relative segment gives `https://h:443/` and the segment |
| Url.RelativeSegmentAppends | internal/client/request/request.go:144-154 | a relative segment after a base URL whose path ends in `/` yields the base followed by the segment |
| Request.BasicAuthHeader | internal/client/request/request.go:25-26 | the header is `Basic ` followed by the padded standard encoding of `user:password`, whose length is a multiple of 4; a server decoding it recovers exactly those UTF-8 bytes; it is not a Bearer header |
| Request.NewRequestWithBasicAuth | internal/client/request/request.go:24-27 | segments start as [baseUrl]; the header is `Basic ` followed by the unpadded encoding of `user:password` and its `=` padding; a server decoding the header recovers exactly those UTF-8 bytes; the header is not a Bearer header |
| Request.NewRequestWithBearerAuth | internal/client/request/request.go:29-31 | segments start as [baseUrl]; a server reading the header recovers exactly the token; the header is not a Basic header |
| Request.BuildLastWriteWins | internal/client/request/request.go:33-66 | any chain of builder calls appends all segments in call order and keeps the header; method, body and query are those of the last call that set them |
| Request.Headers | internal/client/request/request.go:119-132 | `Accept: application/json` always; `Content-Type` if and only if there is a body; `Authorization` if and only if the header is non-empty, carrying exactly that header |
| Request.MethodNames | internal/client/request/request.go:48-65 | a method never set goes out as GET, and the four setters give four different methods |
| Request.Prepare | internal/client/request/request.go:106-132 | preparation fails exactly when URL resolution panics; otherwise it carries the method that was set (GET when none was), the resolved URL and the header rules; the query is rewritten if and only if the map is non-empty |
| Request.PrepareSucceeds | internal/client/request/request.go:144-154 | a request whose first segment has a scheme is always prepared |
| Request.Execute | internal/client/request/request.go:97-142 | the decision table of one attempt: preparation error, transport error, 401 as `Unauthorized` whatever the body, otherwise the status and body unchanged; never the exhausted-retries error |
| Request.TransportFailurePanicsAsWritten | internal/client/request/request.go:134-140 | as written, a transport failure dereferences the nil response and panics, where the corrected `Execute` returns the transport error |
| Request.ExecuteAgreesOnResponses | internal/client/request/request.go:134-141 | the correction changes nothing once the server has answered |
| Request.RetryFrom | internal/client/request/request.go:82-94 | from attempt i on, the sleeps taken are the schedule's own waits from position i, at least one and never more than the waits left |
| Request.RetryFromOutcome | internal/client/request/request.go:83-94 | every attempt but the last answered 429; the run either used up the schedule on 429s and failed with "exhausted retries", or returns the first attempt that was not a 429, errors included |
| Request.ExecuteAndRetryOn429 | internal/client/request/request.go:81-95 | between 1 and 7 attempts, sleeping a prefix of the schedule; every attempt before the last was 429; errors (401 included) and the first non-429 answer are returned at once; exhausted retries only after seven 429s |
| Request.UnpreparedRequestPanics | internal/client/request/request.go:106-109 | a request whose URL cannot be resolved panics on the first attempt, whatever the network would answer |
| Request.AlwaysRateLimited | internal/client/request/request.go:82-94 | seven 429 answers give all seven sleeps, 6300 ms in total, and the exhausted-retries error |
| Request.StopsAtFirstNonRateLimited | internal/client/request/request.go:83-92 | if attempt n is the first non-429, exactly n+1 attempts are made and the result is that attempt's |
| Client.New | internal/client/client.go:25-33 | the credentials are stored; no token, no expiry and an empty cache; the token invariant holds from the start |
| Client.RequestBuilder | internal/client/client.go:35-37 | segments [`https://confluent.cloud/api/`], Basic credentials over the stored key and secret, no body, no query |
| Client.BaseApiUrlIsAbsolute | internal/client/client.go:23 | the control-plane base URL has a scheme, so control-plane requests always resolve |
| Client.AccessTokenRequest | internal/client/access_token.go:39-43 | the refresh is a POST of `{}` to `access_tokens` through the Basic-auth builder |
| Client.GenerateAccessToken | internal/client/access_token.go:38-67 | one issuance request; a transport, 401 or exhausted-retries error is passed on, an undecodable body gives `Undecodable` and a bad claims segment gives its panic, each leaving the cache unchanged; success stores the full token with the expiry its claims carry |
| Client.GetAccessToken | internal/client/access_token.go:20-32 | a fresh token is returned with no request and no change; otherwise exactly one refresh, whose client and requests are kept and whose error is returned as it is, or on success the token it just stored, never empty; nothing but the token cache changes |
| Client.RefreshIffStale | internal/client/access_token.go:22-26 | a request is made if and only if the cached token is not fresh |
| Client.GetAccessTokenKeepsInvariant | internal/client/access_token.go:55-65 | the stored expiry is always the one the stored token's claims give |
| Client.ClaimsExpiryStored | internal/client/access_token.go:55-65 | for a token `header.claims.signature` with base64 claims, the stored expiry is the claims' `exp`, or the epoch when they do not parse |
| Client.DotlessTokenPanics | internal/client/access_token.go:56 | a token without `.` has no element [1]: the refresh panics |
| Client.UrlSafeClaimsPanic | internal/client/access_token.go:56-61 | a claims segment carrying the URL-safe `-` or `_` fails standard decoding: the refresh panics |
| Client.DotlessRefreshPanics | internal/client/access_token.go:20-36 | with a stale cache, an issued token without `.` makes `GetAccessToken` panic after one issuance request, leaving the client unchanged |
| Client.UnparsedClaimsAlwaysRefresh | internal/client/access_token.go:62-65 | when the claims do not parse the expiry is the epoch, and every later call (at any non-negative time) refreshes again |
| Client.RefreshedTokenReused | internal/client/access_token.go:22-25 | a refreshed token is reused, with no request, at any later time more than five minutes before its expiry |
| Client.KafkaRestRequestBuilder | internal/client/client.go:39-45 | a token error is passed on and no request is built; otherwise segments [endpoint] and a Bearer header carrying the token just obtained |
| ServiceAccounts.ListRequest | internal/client/service_accounts.go:33 | a GET of `service_accounts` on the control plane with Basic auth |
| ServiceAccounts.ListServiceAccounts | internal/client/service_accounts.go:22-50 | a cache hit returns the cached list with no request; a miss sends one request; on a 200 that decodes, it stores the list under `serviceAccounts` and returns it; any other outcome is an error and leaves the cache alone; a 200 whose body does not decode gives the ordinary `Undecodable` error |
| ServiceAccounts.ListingIsCachedForever | internal/client/service_accounts.go:24-31 | after a successful listing, every later listing returns the same list with no request |
| ServiceAccounts.ListingOnlyAddsToCache | internal/client/service_accounts.go:45-47 | a listing never changes or removes existing cache entries |
| ServiceAccounts.ScanUserId | internal/client/service_accounts.go:57-62 | the loop ends holding the id of the last account with the name, or its starting value when none has it |
| ServiceAccounts.LastMatchingUserId | internal/client/service_accounts.go:56-63 | the id of the last account with the name, 0 when there is none |
| ServiceAccounts.GetSaNumericId | internal/client/service_accounts.go:52-64 | a listing error is passed on; otherwise the last match's id, or 0 |
| ApiKeys.CreateRequest | internal/client/api_key.go:88-98 | POST `api_keys`; body with account_id = envId, user_id, description and exactly one logical cluster, resourceId |
| ApiKeys.CreateApiKey | internal/client/api_key.go:88-110 | success only on a 200 whose body decodes, returning it; another status gives the creation error; a 200 whose body does not decode gives `Undecodable`; transport and retry errors pass unchanged; the client is untouched |
| ApiKeys.ReadRequest | internal/client/api_key.go:112-113 | GET `iam/v2/api-keys/<key>` |
| ApiKeys.ReadApiKey | internal/client/api_key.go:112-129 | 403 reads as "not found" (and only 403 does); 200 with a decodable body gives the key, and one that does not decode gives `Undecodable`; any other status gives the read error |
| ApiKeys.UpdateRequest | internal/client/api_key.go:131-140 | PUT `api_keys/<id>` with id, account, description and one logical cluster |
| ApiKeys.UpdateApiKey | internal/client/api_key.go:131-148 | success if and only if 200; 403 is an error here; other statuses give the error text the source uses |
| ApiKeys.DeleteRequest | internal/client/api_key.go:150-158 | DELETE `api_keys/<id>` with id, account and one logical cluster |
| ApiKeys.DeleteApiKey | internal/client/api_key.go:150-169 | success if and only if 200 or 403 |
| ApiKeys.FirstAnswerDecides | internal/client/request/request.go:83-92 | for a control-plane request, a first answer that is neither 401 nor 429 is the result of the retry loop |
| ApiKeys.ForbiddenMeansAbsent | internal/client/api_key.go:112-169 | a 403 first answer means "not found" on read and success on delete, but failure on update |
| Acls.QueryParams | internal/client/acl.go:106-114 | the filter has exactly the seven keys principal, resource_name, resource_type, pattern_type, host, operation and permission |
| Acls.QueryRoundTrip | internal/client/acl.go:55-63 | each key carries its own field: reading the seven keys back gives the filter unchanged |
| Acls.QueryMap | internal/client/acl.go:51-64 | no filter gives the empty map; a filter gives a map of exactly the seven keys that reads back as that filter |
| Acls.ListRequest | internal/client/acl.go:44-69 | GET `<rest endpoint>` then `kafka/v3/clusters/<id>/acls` with the query and the Bearer token |
| Acls.CreateRequest | internal/client/acl.go:80-90 | POST to the same collection with the ACL as body and no query |
| Acls.DeleteRequest | internal/client/acl.go:100-119 | DELETE on the collection whose query has exactly the seven keys and reads back as the ACL |
| Acls.DeleteTargetsCreated | internal/client/acl.go:80-119 | a delete built from an ACL addresses the URL the create posted to, and filters exactly the ACL that create posted |
| Acls.ListSpecificACLs | internal/client/acl.go:44-78 | a token failure is returned before any ACL request; otherwise one GET; any status is accepted and only an undecodable body is an error, the ordinary `Undecodable`; the result is the `data` list; the token refresh persists |
| Acls.ListACLs | internal/client/acl.go:40-42 | the unfiltered listing: sent with an empty query |
| Acls.CreateACL | internal/client/acl.go:80-98 | a token failure sends no ACL request; success if and only if the status is 201 |
| Acls.DeleteAcl | internal/client/acl.go:100-127 | a token failure sends no ACL request; success if and only if the status is 201, with the create error text |
| Acls.DeleteRejectsOk | internal/client/acl.go:123-126 | with a fresh token and an absolute endpoint, a 200 answer still fails the delete, with exactly one request sent |
| AclResource.ResourceTypeName | internal/resource_acl.go:85 | every resource type has one of the five accepted names |
| AclResource.ParseResourceType | internal/resource_acl.go:85 | a name is accepted if and only if it is one of TOPIC, GROUP, CLUSTER, TRANSACTIONAL_ID, DELEGATION_TOKEN, and it names that value |
| AclResource.ResourceTypeRoundTrip | internal/resource_acl.go:85 | every resource type's name is accepted as that type |
| AclResource.PatternTypeName | internal/resource_acl.go:96 | every pattern type has one of the three accepted names |
| AclResource.ParsePatternType | internal/resource_acl.go:96 | accepted if and only if MATCH, LITERAL or PREFIXED |
| AclResource.PatternTypeRoundTrip | internal/resource_acl.go:96 | every pattern type's name is accepted as that type |
| AclResource.OperationName | internal/resource_acl.go:107 | every operation has one of the ten accepted names |
| AclResource.ParseOperation | internal/resource_acl.go:107 | accepted if and only if one of the ten listed operations |
| AclResource.OperationRoundTrip | internal/resource_acl.go:107 | every operation's name is accepted as that operation |
| AclResource.PermissionName | internal/resource_acl.go:113 | every permission has one of the two accepted names |
| AclResource.ParsePermission | internal/resource_acl.go:113 | accepted if and only if ALLOW or DENY |
| AclResource.PermissionRoundTrip | internal/resource_acl.go:113 | every permission's name is accepted as that permission |
| AclResource.ValidClusterId | internal/resource_acl.go:74 | the direct check (prefix `lkc-` and a fifth character that is not a newline) agrees in both directions with the regular expression `^lkc-.+` read as Go reads `.` |
| AclResource.Principal | internal/resource_acl.go:140 | the principal is exactly `User:` followed by the `%d` text of the id, and the id reads back from it |
| AclResource.PrincipalInjective | internal/resource_acl.go:176 | distinct user ids give distinct principals, so the read filter names one user |
| AclResource.MakeIdParses | internal/resource_acl.go:250-262 | when no part holds a separator, the id splits back into the cluster, the service account and the six ACL fields in order |
| AclResource.AclFilter | internal/resource_acl.go:139-147 | the ACL sent in Create, Read and Delete: the principal is exactly `Principal(userId)`, and the other six fields are the model's, in id order |
| AclResource.Reconcile | internal/resource_acl.go:192-207 | several matches leave the state unwritten; exactly one is copied in (id, endpoint and account kept); none nulls the id |
| AclResource.ReconcileKeepsMatchingState | internal/resource_acl.go:196-204 | a state that already describes its one match is left unchanged |
| AclResource.ReconcileIdempotent | internal/resource_acl.go:192-207 | applying the read rule twice to the same answer gives the result of applying it once |
| AclResource.CreateAcl | internal/resource_acl.go:119-158 | a lookup failure stores nothing and creates nothing; otherwise the ACL is created even for user id 0; unless the create panicked, the plan with its composite id is stored whatever happened, and the diagnostics are exactly the "could not find" one when the user id is 0 followed by the create failure when the create failed; none if and only if the user was found and the create succeeded; a panic at any step stores nothing and leaves only the crash |
| AclResource.SchemelessEndpointCrashesCreate | internal/resource_acl.go:148-151 | a `rest_endpoint` without a scheme crashes Create: nothing is stored and only the crash is reported |
| AclResource.DotlessTokenCrashesCreate | internal/resource_acl.go:148-151 | a refresh that issues a token without `.` crashes Create: nothing is stored and only the crash is reported |
| AclResource.ReadAcl | internal/resource_acl.go:160-213 | a lookup failure keeps the state; a listing failure is reported and nulls the id; several matches report and keep the state; otherwise the read rule applies; a panic keeps the state and leaves only the crash |
| AclResource.DeleteAclAsWritten | internal/resource_acl.go:219-248 | as written, a failed lookup is reported and leaves the client as the lookup left it; once the lookup succeeds the only diagnostic ever produced is the crash of a panicking delete, whatever else the delete returned |
| AclResource.DeleteAcl | internal/resource_acl.go:219-248 | corrected: a failed lookup is reported and leaves the client as the lookup left it; otherwise no diagnostics if and only if the delete succeeded; a failure is reported with its error, and a panic as the crash |
| AclResource.DeleteFailureHiddenAsWritten | internal/resource_acl.go:243-246 | both versions send the same requests; they differ exactly when the written version is silent and the corrected one reports |
| ApiKeyResource.NormalizeOutgoing | internal/resource_api_key.go:159-162 | the description sent is never empty, and unchanged when it is not empty |
| ApiKeyResource.ReconcileDescription | internal/resource_api_key.go:142-146 | the server's description is kept unless it is `--` while the state holds `""`, in which case `""` stays |
| ApiKeyResource.DescriptionRoundTrip | internal/resource_api_key.go:142-162 | any description, sent through the normalisation and read back, reconciles to itself |
| ApiKeyResource.CreateKey | internal/resource_api_key.go:89-119 | nothing is stored when the lookup or the create fails; otherwise the plan is stored with the `strconv.Itoa` text of the key's numeric id (which reads back as that id), with the returned key and secret, and nothing else changed |
| ApiKeyResource.ReadKeyAsWritten | internal/resource_api_key.go:121-150 | as written, the state is never changed; only errors are reported; the client and requests are those of the read |
| ApiKeyResource.ReadKey | internal/resource_api_key.go:121-150 | corrected: a missing key nulls the id; a found key sets resource_id from the spec's resource and the reconciled description, and changes nothing else |
| ApiKeyResource.DeletedKeyKeptAsWritten | internal/resource_api_key.go:136-139 | for a key deleted outside Terraform, the written version keeps the id and the corrected one nulls it |
| ApiKeyResource.ReadRestoresUpdatedDescription | internal/resource_api_key.go:142-148 | after the server echoes what Update sent, the corrected read leaves the configured description unchanged |
| ApiKeyResource.UpdateKey | internal/resource_api_key.go:152-176 | the request carries a non-empty description; the plan is stored if and only if the update succeeded |
| ApiKeyResource.DeleteKey | internal/resource_api_key.go:178-193 | no diagnostics if and only if the delete succeeded (a missing key included) |
| Provider.ResolveCredential | internal/provider.go:67-75 | a null configuration value falls back to the environment; a set one wins, even when empty |
| Provider.Configure | internal/provider.go:57-96 | a missing key and a missing secret are reported independently, each at most once and the key first; a client (the same for resources and data sources) exists if and only if nothing was reported, built from the resolved credentials |
| Provider.ExplicitEmptyKeyOverridesEnvironment | internal/provider.go:70-82 | an explicitly empty key hides the environment's key and stops configuration |
| Provider.EnvironmentFallback | internal/provider.go:67-68 | with nothing configured, non-empty environment credentials build the client |

## Left out

- JSON encoding and decoding (`UnpackJSONResponse`, `json.Marshal`) are not modelled. A response body is either decoded (`Some(payload)`) or not (`None`). A body that fails to marshal is not modelled; the bodies here always marshal.
- The claims parser (`json.Unmarshal` of the `exp` claim) is a parameter.
- `net/url` is modelled for scheme, host and path only. Query strings, fragments, user info, percent-escaping, `.`/`..` segments, parse errors, scheme lower-casing and the rendering of an empty host are not modelled. The model assumes every URL is a base with a scheme followed by plain relative paths. Nothing in the source guarantees this: `rest_endpoint` is not validated, so an endpoint without a scheme reaches the nil-URL panic (`Url.RelativeFirstSegmentPanics`), and a cluster id may hold `?` or `%`, which `net/url` would read as a query or an escape where the model keeps it in the path.
- The URL-encoded query string is left as the map itself (`rawQuery`); the ordering and escaping of `url.Values.Encode` are not modelled.
- `http.NewRequest` errors (an invalid method or URL) are not modelled. Neither is the transport itself: an answer is an `Outcome`.
- Mutexes are not modelled. Each locked region is one sequential step; concurrent callers are out of scope.
- Real sleeping and the wall clock are not modelled. Sleeps are recorded, and `now` is a parameter in Unix nanoseconds.
- Client.Fresh: `time.Until(...).Minutes() > 5` is read as exact arithmetic. The model ignores the saturation of Go's `Duration` near its 290-year limit and the overflow of `exp` seconds in nanoseconds.
- The schema registry data source and client are not part of this model (a thin GET outside the kernel).
- Resource and provider `Schema` and `Metadata`, and the resources' `Configure`, are not modelled (the provider's `Configure` is), nor the plan/state `Get`/`Set` plumbing, `tflog` and `main.go`. Validators are modelled as functions on strings; their wiring into the schema is not.
- Attribute paths of the provider's diagnostics are not modelled, only summary and detail.
- Error texts carry the status code rather than Go's full `response.Status` string.
- The `omitempty` tags of the API-key create body are not modelled: a zero user id or an empty description is shown in the body, although Go would drop it from the JSON.
- The acceptance tests (`*_test.go`) need live cloud credentials and are not modelled.
- Request.ExecuteAndRetryOn429, and through it every operation of Client, ServiceAccounts, ApiKeys, Acls, AclResource and ApiKeyResource: each attempt uses the corrected `Request.Execute`, so a transport failure is an ordinary error here. As written it panics and ends the plugin; for example `AclResource.CreateAcl` then stores the plan, where the written code stores nothing. `Request.ExecuteAsWritten` keeps the written behaviour for one attempt.
- Acls.DeleteAcl: the query is taken by value. The source dereferences a pointer that every caller sets, so the nil case cannot occur.

## Findings

| source | as written | input that shows it | evidently intended | confidence | as-written member | corrected member |
|---|---|---|---|---|---|---|
| internal/client/request/request.go:134-140 | `response.StatusCode` is read before `err` is checked | any transport failure (connection refused): `Do` returns a nil response and the read panics | check `err` first and return the transport error | high, not executed | Request.TransportFailurePanicsAsWritten | Request.Execute |
| internal/resource_acl.go:243-246 | the error of `DeleteAcl` is discarded and the lookup's `err`, nil at that point, is tested | a delete answered with 500 (or 200, since 201 is expected) reports no diagnostic, and Terraform drops the ACL from state | report the delete's own error | high, not executed | AclResource.DeleteAclAsWritten | AclResource.DeleteAcl |
| internal/resource_api_key.go:121-150 | the reconciled model is never written back to `resp.State` | a key deleted outside Terraform (read answers 403): the id stays set, so the key is never recreated | set the state after reconciling, with a null id when the key is gone | high, not executed | ApiKeyResource.ReadKeyAsWritten | ApiKeyResource.ReadKey |

`Request.ExecuteAsWritten` is the as-written `Execute`. `Request.TransportFailurePanicsAsWritten` exhibits the panic and `Request.ExecuteAgreesOnResponses` shows the two agree on every answered request.

`AclResource.DeleteFailureHiddenAsWritten` and `ApiKeyResource.DeletedKeyKeptAsWritten` relate the other two pairs.

The rest of the model uses the corrected `Execute`.

=== FILE: acl.dfy ===
/** internal/client/acl.go: listing, creating and deleting Kafka ACLs through a
    cluster's REST endpoint. Each call first obtains a bearer token (possibly
    refreshing it), then sends one request to `kafka/v3/clusters/<id>/acls`. */
module Acls {
  import opened Wrappers
  import opened Wire
  import Request
  import opened Client
  import Url

  /** Both create and delete report a non-201 answer with the create text. */
  const AclFailure := "Create ACL Failure"

  function AclEndpoint(clusterId: string): string
  {
    "kafka/v3/clusters/" + clusterId + "/acls"
  }

  const QueryKeys: set<string> :=
    {"principal", "resource_name", "resource_type", "pattern_type", "host", "operation", "permission"}

  /** The filter of an ACL as query parameters, one key per field. */
  function QueryParams(q: AclRequest): (m: map<string, string>)
    ensures m.Keys == QueryKeys
  {
    map["principal" := q.principal, "resource_name" := q.resourceName, "resource_type" := q.resourceType,
        "pattern_type" := q.patternType, "host" := q.host, "operation" := q.operation,
        "permission" := q.permission]
  }

  /** The filter an ACL REST server reads back from query parameters. */
  function QueryFilter(m: map<string, string>): Option<AclRequest>
  {
    if QueryKeys <= m.Keys then
      Some(AclRequest(m["resource_type"], m["resource_name"], m["pattern_type"], m["principal"],
                      m["host"], m["operation"], m["permission"]))
    else None
  }

  lemma QueryRoundTrip(q: AclRequest)
    ensures QueryFilter(QueryParams(q)) == Some(q)
  {
  }

  /** A missing filter sends no query parameters at all. */
  function QueryMap(query: Option<AclRequest>): (m: map<string, string>)
    ensures query.None? <==> m == map[]
    ensures query.Some? ==> QueryFilter(m) == query && m.Keys == QueryKeys
  {
    match query
    case None => map[]
    case Some(q) =>
      QueryRoundTrip(q);
      assert "host" in QueryParams(q);
      QueryParams(q)
  }

  // ---------------------------------------------------------------------
  // The three requests

  function ListRequest(restEndpoint: string, token: string, clusterId: string, query: Option<AclRequest>)
    : (r: Request.Request)
    ensures r.segments == [restEndpoint, AclEndpoint(clusterId)] && r.httpMethod == Request.Get
    ensures r.body == None && r.query == QueryMap(query)
    ensures Request.BearerToken(r.authHeader) == Some(token)
  {
    var b := Request.NewRequestWithBearerAuth(restEndpoint, token);
    Request.SetMethod(Request.SetQueryParams(Request.Endpoint(b, [AclEndpoint(clusterId)]), QueryMap(query)), Request.Get)
  }

  function CreateRequest(restEndpoint: string, token: string, clusterId: string, acl: AclRequest)
    : (r: Request.Request)
    ensures r.segments == [restEndpoint, AclEndpoint(clusterId)] && r.httpMethod == Request.Post
    ensures r.body == Some(AclBody(acl)) && r.query == map[]
    ensures Request.BearerToken(r.authHeader) == Some(token)
  {
    var b := Request.NewRequestWithBearerAuth(restEndpoint, token);
    Request.SetMethod(Request.SetBody(Request.Endpoint(b, [AclEndpoint(clusterId)]), AclBody(acl)), Request.Post)
  }

  function DeleteRequest(restEndpoint: string, token: string, clusterId: string, query: AclRequest)
    : (r: Request.Request)
    ensures r.segments == [restEndpoint, AclEndpoint(clusterId)] && r.httpMethod == Request.Delete
    ensures r.body == None && QueryFilter(r.query) == Some(query) && r.query.Keys == QueryKeys
    ensures Request.BearerToken(r.authHeader) == Some(token)
  {
    var b := Request.NewRequestWithBearerAuth(restEndpoint, token);
    QueryRoundTrip(query);
    Request.SetMethod(Request.SetQueryParams(Request.Endpoint(b, [AclEndpoint(clusterId)]), QueryParams(query)), Request.Delete)
  }

  /** A delete built from the same ACL addresses the collection the create
      posted to and filters exactly the ACL the create posted. */
  lemma DeleteTargetsCreated(restEndpoint: string, token: string, clusterId: string, acl: AclRequest)
    ensures DeleteRequest(restEndpoint, token, clusterId, acl).segments
         == CreateRequest(restEndpoint, token, clusterId, acl).segments
    ensures QueryFilter(DeleteRequest(restEndpoint, token, clusterId, acl).query)
         == Some(CreateRequest(restEndpoint, token, clusterId, acl).body.value.acl)
  {
  }

  // ---------------------------------------------------------------------
  // Operations

  /** `ListSpecificACLs`: any status is accepted; only a body that does not
      decode is an error. A token failure sends no ACL request. */
  function ListSpecificACLs(c: Client, restEndpoint: string, clusterId: string, query: Option<AclRequest>,
                            now: int, src: TokenSource, net: nat -> Request.Outcome<AclList>)
    : (s: Step<seq<AclEntry>>)
    ensures var t := GetAccessToken(c, now, src);
            s.client == t.client
            && (t.result.Err? ==> s.result == Err(t.result.error) && s.sent == t.sent)
            && (t.result.Ok? ==>
                  var request := ListRequest(restEndpoint, t.result.value, clusterId, query);
                  var run := Request.ExecuteAndRetryOn429(request, net);
                  s.sent == t.sent + [request]
                  && (run.result.Err? ==> s.result == Err(run.result.error))
                  && (s.result.Ok? <==> run.result.Ok? && run.result.value.payload.Some?)
                  && (s.result.Ok? ==> s.result.value == run.result.value.payload.value.data)
                  && (run.result.Ok? && run.result.value.payload.None? ==> s.result == Err(Request.Undecodable)))
  {
    var t := GetAccessToken(c, now, src);
    match t.result
    case Err(e) => Step(Err(e), t.client, t.sent)
    case Ok(token) =>
      var request := ListRequest(restEndpoint, token, clusterId, query);
      var run := Request.ExecuteAndRetryOn429(request, net);
      var result :=
        match run.result
        case Err(e) => Err(e)
        case Ok(response) =>
          if response.payload.None? then Err(Request.Undecodable) else Ok(response.payload.value.data);
      Step(result, t.client, t.sent + [request])
  }

  /** `ListACLs`: the unfiltered listing, sent without query parameters. */
  function ListACLs(c: Client, restEndpoint: string, clusterId: string,
                    now: int, src: TokenSource, net: nat -> Request.Outcome<AclList>)
    : (s: Step<seq<AclEntry>>)
    ensures s == ListSpecificACLs(c, restEndpoint, clusterId, None, now, src, net)
    ensures |s.sent| > |GetAccessToken(c, now, src).sent| ==> s.sent[|s.sent| - 1].query == map[]
  {
    ListSpecificACLs(c, restEndpoint, clusterId, None, now, src, net)
  }

  /** `CreateACL`: only 201 Created succeeds. */
  function CreateACL(c: Client, restEndpoint: string, clusterId: string, acl: AclRequest,
                     now: int, src: TokenSource, net: nat -> Request.Outcome<()>)
    : (s: Step<()>)
    ensures var t := GetAccessToken(c, now, src);
            s.client == t.client
            && (t.result.Err? ==> s.result == Err(t.result.error) && s.sent == t.sent)
            && (t.result.Ok? ==>
                  var request := CreateRequest(restEndpoint, t.result.value, clusterId, acl);
                  var run := Request.ExecuteAndRetryOn429(request, net);
                  s.sent == t.sent + [request]
                  && (run.result.Err? ==> s.result == Err(run.result.error))
                  && (s.result.Ok? <==> run.result.Ok? && run.result.value.status == 201)
                  && (run.result.Ok? && run.result.value.status != 201 ==>
                        s.result == Err(Request.UnexpectedStatus(AclFailure, run.result.value.status))))
  {
    var t := GetAccessToken(c, now, src);
    match t.result
    case Err(e) => Step(Err(e), t.client, t.sent)
    case Ok(token) =>
      var request := CreateRequest(restEndpoint, token, clusterId, acl);
      var run := Request.ExecuteAndRetryOn429(request, net);
      var result :=
        match run.result
        case Err(e) => Err(e)
        case Ok(response) =>
          if response.status != 201 then Err(Request.UnexpectedStatus(AclFailure, response.status)) else Ok(());
      Step(result, t.client, t.sent + [request])
  }

  /** `DeleteAcl`: a DELETE filtered by the ACL's fields; as written it also
      demands 201 Created. */
  function DeleteAcl(c: Client, restEndpoint: string, clusterId: string, query: AclRequest,
                     now: int, src: TokenSource, net: nat -> Request.Outcome<()>)
    : (s: Step<()>)
    ensures var t := GetAccessToken(c, now, src);
            s.client == t.client
            && (t.result.Err? ==> s.result == Err(t.result.error) && s.sent == t.sent)
            && (t.result.Ok? ==>
                  var request := DeleteRequest(restEndpoint, t.result.value, clusterId, query);
                  var run := Request.ExecuteAndRetryOn429(request, net);
                  s.sent == t.sent + [request]
                  && (run.result.Err? ==> s.result == Err(run.result.error))
                  && (s.result.Ok? <==> run.result.Ok? && run.result.value.status == 201)
                  && (run.result.Ok? && run.result.value.status != 201 ==>
                        s.result == Err(Request.UnexpectedStatus(AclFailure, run.result.value.status))))
  {
    var t := GetAccessToken(c, now, src);
    match t.result
    case Err(e) => Step(Err(e), t.client, t.sent)
    case Ok(token) =>
      var request := DeleteRequest(restEndpoint, token, clusterId, query);
      var run := Request.ExecuteAndRetryOn429(request, net);
      var result :=
        match run.result
        case Err(e) => Err(e)
        case Ok(response) =>
          if response.status != 201 then Err(Request.UnexpectedStatus(AclFailure, response.status)) else Ok(());
      Step(result, t.client, t.sent + [request])
  }

  /** With a fresh token and an absolute REST endpoint, a first answer of
      200 OK still fails a delete, because the source expects 201. */
  lemma DeleteRejectsOk(c: Client, restEndpoint: string, clusterId: string, query: AclRequest,
                        now: int, src: TokenSource, net: nat -> Request.Outcome<()>)
    requires Fresh(c.accessToken, now)
    requires Url.Parse(restEndpoint).scheme != ""
    requires net(0) == Request.Responded(200, Some(()))
    ensures DeleteAcl(c, restEndpoint, clusterId, query, now, src, net).result
         == Err(Request.UnexpectedStatus(AclFailure, 200))
    ensures DeleteAcl(c, restEndpoint, clusterId, query, now, src, net).sent
         == [DeleteRequest(restEndpoint, c.accessToken.token, clusterId, query)]
  {
    var request := DeleteRequest(restEndpoint, c.accessToken.token, clusterId, query);
    Request.PrepareSucceeds(request);
    assert !Request.RateLimited(request, net(0));
    Request.StopsAtFirstNonRateLimited(request, net, 0);
  }
}

=== FILE: api_key.dfy ===
/** internal/client/api_key.go: the four API-key operations of the control-plane
    API, with their request paths, bodies and status decision tables. A 403
    means "not found" on read and delete, but not on update. */
module ApiKeys {
  import opened Wrappers
  import opened Wire
  import Request
  import opened Client

  const CreateApiKeyEndpoint := "api_keys"
  const CreateFailure := "api key creation failed"
  const ReadFailure := "api key read failed"
  const UpdateFailure := "delete request failed"   // the source reuses the delete text
  const DeleteFailure := "delete request failed"

  function ReadApiKeyPath(key: string): string { "iam/v2/api-keys/" + key }
  function UpdateApiKeyPath(id: string): string { "api_keys/" + id }
  function DeleteApiKeyPath(id: string): string { "api_keys/" + id }

  /** The single logical cluster every body names. */
  function OneCluster(resourceId: string): (clusters: seq<LogicalCluster>)
    ensures |clusters| == 1 && clusters[0].id == resourceId
  {
    [LogicalCluster(resourceId)]
  }

  // ---------------------------------------------------------------------
  // Create

  function CreateRequest(c: Client, userId: int, envId: string, resourceId: string, description: string)
    : (r: Request.Request)
    ensures r.segments == [BaseApiUrl, CreateApiKeyEndpoint] && r.httpMethod == Request.Post
    ensures r.authHeader == RequestBuilder(c).authHeader
    ensures r.body.Some? && r.body.value.CreateApiKeyBody?
    ensures r.body.value.accountId == envId && r.body.value.userId == userId
    ensures r.body.value.description == description && r.body.value.logicalClusters == OneCluster(resourceId)
  {
    var body := CreateApiKeyBody(envId, userId, description, OneCluster(resourceId));
    Request.SetMethod(Request.SetBody(Request.Endpoint(RequestBuilder(c), [CreateApiKeyEndpoint]), body), Request.Post)
  }

  /** `CreateApiKey`: succeeds only on a decoded 200 reply. */
  function CreateApiKey(c: Client, userId: int, envId: string, resourceId: string, description: string,
                        net: nat -> Request.Outcome<ApiKeyInternal>): (s: Step<ApiKeyInternal>)
    ensures s.client == c && s.sent == [CreateRequest(c, userId, envId, resourceId, description)]
    ensures var run := Request.ExecuteAndRetryOn429(CreateRequest(c, userId, envId, resourceId, description), net);
            (run.result.Err? ==> s.result == Err(run.result.error))
            && (s.result.Ok? <==> run.result.Ok? && run.result.value.status == 200 && run.result.value.payload.Some?)
            && (s.result.Ok? ==> s.result.value == run.result.value.payload.value)
            && (run.result.Ok? && run.result.value.status == 200 && run.result.value.payload.None? ==>
                  s.result == Err(Request.Undecodable))
            && (run.result.Ok? && run.result.value.status != 200 ==>
                  s.result == Err(Request.UnexpectedStatus(CreateFailure, run.result.value.status)))
  {
    var request := CreateRequest(c, userId, envId, resourceId, description);
    var run := Request.ExecuteAndRetryOn429(request, net);
    var result :=
      match run.result
      case Err(e) => Err(e)
      case Ok(response) =>
        if response.status != 200 then Err(Request.UnexpectedStatus(CreateFailure, response.status))
        else if response.payload.None? then Err(Request.Undecodable)
        else Ok(response.payload.value);
    Step(result, c, [request])
  }

  // ---------------------------------------------------------------------
  // Read

  function ReadRequest(c: Client, key: string): (r: Request.Request)
    ensures r.segments == [BaseApiUrl, ReadApiKeyPath(key)] && r.httpMethod == Request.Get
    ensures r.authHeader == RequestBuilder(c).authHeader && r.body == None
  {
    Request.SetMethod(Request.Endpoint(RequestBuilder(c), [ReadApiKeyPath(key)]), Request.Get)
  }

  /** `ReadApiKey`: None (not found) on 403, the decoded key on 200, an error
      on any other status. */
  function ReadApiKey(c: Client, key: string, net: nat -> Request.Outcome<ApiKeyIamV2>)
    : (s: Step<Option<ApiKeyIamV2>>)
    ensures s.client == c && s.sent == [ReadRequest(c, key)]
    ensures var run := Request.ExecuteAndRetryOn429(ReadRequest(c, key), net);
            (run.result.Err? ==> s.result == Err(run.result.error))
            && (s.result == Ok(None) <==> run.result.Ok? && run.result.value.status == 403)
            && (s.result.Ok? && s.result.value.Some? <==>
                  run.result.Ok? && run.result.value.status == 200 && run.result.value.payload.Some?)
            && (s.result.Ok? && s.result.value.Some? ==> s.result.value.value == run.result.value.payload.value)
            && (run.result.Ok? && run.result.value.status == 200 && run.result.value.payload.None? ==>
                  s.result == Err(Request.Undecodable))
            && (run.result.Ok? && run.result.value.status != 200 && run.result.value.status != 403 ==>
                  s.result == Err(Request.UnexpectedStatus(ReadFailure, run.result.value.status)))
  {
    var request := ReadRequest(c, key);
    var run := Request.ExecuteAndRetryOn429(request, net);
    var result :=
      match run.result
      case Err(e) => Err(e)
      case Ok(response) =>
        if response.status == 403 then Ok(None)
        else if response.status != 200 then Err(Request.UnexpectedStatus(ReadFailure, response.status))
        else if response.payload.None? then Err(Request.Undecodable)
        else Ok(Some(response.payload.value));
    Step(result, c, [request])
  }

  // ---------------------------------------------------------------------
  // Update

  function UpdateRequest(c: Client, id: string, description: string, envId: string, resourceId: string)
    : (r: Request.Request)
    ensures r.segments == [BaseApiUrl, UpdateApiKeyPath(id)] && r.httpMethod == Request.Put
    ensures r.authHeader == RequestBuilder(c).authHeader
    ensures r.body == Some(UpdateApiKeyBody(id, envId, description, OneCluster(resourceId)))
  {
    var body := UpdateApiKeyBody(id, envId, description, OneCluster(resourceId));
    Request.SetMethod(Request.SetBody(Request.Endpoint(RequestBuilder(c), [UpdateApiKeyPath(id)]), body), Request.Put)
  }

  /** `UpdateApiKey`: succeeds only on 200; 403 is an error here. */
  function UpdateApiKey(c: Client, id: string, description: string, envId: string, resourceId: string,
                        net: nat -> Request.Outcome<()>): (s: Step<()>)
    ensures s.client == c && s.sent == [UpdateRequest(c, id, description, envId, resourceId)]
    ensures var run := Request.ExecuteAndRetryOn429(UpdateRequest(c, id, description, envId, resourceId), net);
            (run.result.Err? ==> s.result == Err(run.result.error))
            && (s.result.Ok? <==> run.result.Ok? && run.result.value.status == 200)
            && (run.result.Ok? && run.result.value.status != 200 ==>
                  s.result == Err(Request.UnexpectedStatus(UpdateFailure, run.result.value.status)))
  {
    var request := UpdateRequest(c, id, description, envId, resourceId);
    var run := Request.ExecuteAndRetryOn429(request, net);
    var result :=
      match run.result
      case Err(e) => Err(e)
      case Ok(response) =>
        if response.status != 200 then Err(Request.UnexpectedStatus(UpdateFailure, response.status))
        else Ok(());
    Step(result, c, [request])
  }

  // ---------------------------------------------------------------------
  // Delete

  function DeleteRequest(c: Client, id: string, envId: string, resourceId: string): (r: Request.Request)
    ensures r.segments == [BaseApiUrl, DeleteApiKeyPath(id)] && r.httpMethod == Request.Delete
    ensures r.authHeader == RequestBuilder(c).authHeader
    ensures r.body == Some(DeleteApiKeyBody(id, envId, OneCluster(resourceId)))
  {
    var body := DeleteApiKeyBody(id, envId, OneCluster(resourceId));
    Request.SetMethod(Request.SetBody(Request.Endpoint(RequestBuilder(c), [DeleteApiKeyPath(id)]), body), Request.Delete)
  }

  /** `DeleteApiKey`: 200 and 403 (already gone) both succeed. */
  function DeleteApiKey(c: Client, id: string, envId: string, resourceId: string,
                        net: nat -> Request.Outcome<()>): (s: Step<()>)
    ensures s.client == c && s.sent == [DeleteRequest(c, id, envId, resourceId)]
    ensures var run := Request.ExecuteAndRetryOn429(DeleteRequest(c, id, envId, resourceId), net);
            (run.result.Err? ==> s.result == Err(run.result.error))
            && (s.result.Ok? <==> run.result.Ok? && (run.result.value.status == 200 || run.result.value.status == 403))
            && (run.result.Ok? && run.result.value.status != 200 && run.result.value.status != 403 ==>
                  s.result == Err(Request.UnexpectedStatus(DeleteFailure, run.result.value.status)))
  {
    var request := DeleteRequest(c, id, envId, resourceId);
    var run := Request.ExecuteAndRetryOn429(request, net);
    var result :=
      match run.result
      case Err(e) => Err(e)
      case Ok(response) =>
        if response.status == 403 || response.status == 200 then Ok(())
        else Err(Request.UnexpectedStatus(DeleteFailure, response.status));
    Step(result, c, [request])
  }

  // ---------------------------------------------------------------------

  /** The first answer of a control-plane request is its result unless it is 429. */
  lemma FirstAnswerDecides<P>(r: Request.Request, net: nat -> Request.Outcome<P>)
    requires |r.segments| >= 1 && r.segments[0] == BaseApiUrl
    requires net(0).Responded? && net(0).status != 429 && net(0).status != 401
    ensures Request.ExecuteAndRetryOn429(r, net).result == Ok(Request.Response(net(0).status, net(0).payload))
  {
    BaseApiUrlIsAbsolute();
    Request.PrepareSucceeds(r);
    var first := Request.Execute(r, net(0));
    assert first == Ok(Request.Response(net(0).status, net(0).payload));
    assert !Request.RateLimited(r, net(0));
    Request.StopsAtFirstNonRateLimited(r, net, 0);
  }

  /** 403 as absence: a first answer of 403 reads as "not found" and
      deletes successfully, while an update reports it as a failure. */
  lemma ForbiddenMeansAbsent(c: Client, key: string, id: string, envId: string, resourceId: string,
                             description: string, payload: Option<ApiKeyIamV2>,
                             readNet: nat -> Request.Outcome<ApiKeyIamV2>, net: nat -> Request.Outcome<()>)
    requires readNet(0) == Request.Responded(403, payload)
    requires net(0) == Request.Responded(403, Some(()))
    ensures ReadApiKey(c, key, readNet).result == Ok(None)
    ensures DeleteApiKey(c, id, envId, resourceId, net).result == Ok(())
    ensures UpdateApiKey(c, id, description, envId, resourceId, net).result
         == Err(Request.UnexpectedStatus(UpdateFailure, 403))
  {
    FirstAnswerDecides(ReadRequest(c, key), readNet);
    FirstAnswerDecides(DeleteRequest(c, id, envId, resourceId), net);
    FirstAnswerDecides(UpdateRequest(c, id, description, envId, resourceId), net);
  }
}

=== FILE: base64.dfy ===
/** Base 64 over the standard alphabet of section 4 of RFC 4648, as Go's
    `encoding/base64` implements it: `StdEncoding.EncodeToString` (padded,
    used for the Basic credentials) and `RawStdEncoding.DecodeString`
    (unpadded, section 3.2, used for the claims segment of a bearer token). */
module Base64 {
  import opened Wrappers
  import opened Text

  /** The character for a 6-bit group value. */
  function Digit(v: int): (c: char)
    requires 0 <= v < 64
  {
    if v < 26 then (65 + v) as char           // 'A' .. 'Z'
    else if v < 52 then (97 + v - 26) as char // 'a' .. 'z'
    else if v < 62 then (48 + v - 52) as char // '0' .. '9'
    else if v == 62 then '+'
    else '/'
  }

  /** The 6-bit value of an alphabet character; None for any other character,
      the padding character `=` included. */
  function DigitValue(c: char): (r: Option<int>)
    ensures r.Some? ==> 0 <= r.value < 64
  {
    var n := c as int;
    if 65 <= n <= 90 then Some(n - 65)
    else if 97 <= n <= 122 then Some(n - 97 + 26)
    else if 48 <= n <= 57 then Some(n - 48 + 52)
    else if c == '+' then Some(62)
    else if c == '/' then Some(63)
    else None
  }

  predicate IsDigit(c: char) {
    DigitValue(c).Some?
  }

  lemma DigitValueOfDigit(v: int)
    requires 0 <= v < 64
    ensures DigitValue(Digit(v)) == Some(v)
  {
  }

  function Sextet(c: char): (v: int)
    requires IsDigit(c)
    ensures 0 <= v < 64
  {
    DigitValue(c).value
  }

  /** The two characters of a final single byte. */
  function Group1(x: byte): (s: string)
    ensures |s| == 2
    ensures DigitValue(s[0]) == Some(x as int / 4) && DigitValue(s[1]) == Some(x as int % 4 * 16)
  {
    DigitValueOfDigit(x as int / 4);
    DigitValueOfDigit(x as int % 4 * 16);
    [Digit(x as int / 4), Digit(x as int % 4 * 16)]
  }

  /** The three characters of a final pair of bytes. */
  function Group2(x: byte, y: byte): (s: string)
    ensures |s| == 3
    ensures DigitValue(s[0]) == Some(x as int / 4)
    ensures DigitValue(s[1]) == Some(x as int % 4 * 16 + y as int / 16)
    ensures DigitValue(s[2]) == Some(y as int % 16 * 4)
  {
    DigitValueOfDigit(x as int / 4);
    DigitValueOfDigit(x as int % 4 * 16 + y as int / 16);
    DigitValueOfDigit(y as int % 16 * 4);
    [Digit(x as int / 4), Digit(x as int % 4 * 16 + y as int / 16), Digit(y as int % 16 * 4)]
  }

  /** The four characters of a full group of three bytes. */
  function Group3(x: byte, y: byte, z: byte): (s: string)
    ensures |s| == 4
    ensures DigitValue(s[0]) == Some(x as int / 4)
    ensures DigitValue(s[1]) == Some(x as int % 4 * 16 + y as int / 16)
    ensures DigitValue(s[2]) == Some(y as int % 16 * 4 + z as int / 64)
    ensures DigitValue(s[3]) == Some(z as int % 64)
  {
    DigitValueOfDigit(x as int / 4);
    DigitValueOfDigit(x as int % 4 * 16 + y as int / 16);
    DigitValueOfDigit(y as int % 16 * 4 + z as int / 64);
    DigitValueOfDigit(z as int % 64);
    [Digit(x as int / 4), Digit(x as int % 4 * 16 + y as int / 16),
     Digit(y as int % 16 * 4 + z as int / 64), Digit(z as int % 64)]
  }

  /** Encoding without padding: every 3 bytes become 4 characters, and a final
      group of 1 or 2 bytes becomes 2 or 3 characters. */
  function EncodeRaw(b: seq<byte>): (s: string)
    ensures |s| == (4 * |b| + 2) / 3
    decreases |b|
  {
    if |b| == 0 then ""
    else if |b| == 1 then Group1(b[0])
    else if |b| == 2 then Group2(b[0], b[1])
    else Group3(b[0], b[1], b[2]) + EncodeRaw(b[3..])
  }

  /** Every character of the unpadded encoding is in the alphabet. */
  lemma {:induction false} EncodeRawInAlphabet(b: seq<byte>)
    ensures forall i | 0 <= i < |EncodeRaw(b)| :: IsDigit(EncodeRaw(b)[i])
    decreases |b|
  {
    if |b| >= 3 {
      EncodeRawInAlphabet(b[3..]);
      var g := Group3(b[0], b[1], b[2]);
      assert EncodeRaw(b) == g + EncodeRaw(b[3..]);
    }
  }

  /** A character outside the alphabet never occurs in the unpadded encoding. */
  lemma EncodeRawAvoids(b: seq<byte>, c: char)
    requires !IsDigit(c)
    ensures c !in EncodeRaw(b)
  {
    EncodeRawInAlphabet(b);
  }

  /** The `=` characters that complete the last 4-character group. */
  function Padding(n: nat): string
  {
    if n % 3 == 1 then "==" else if n % 3 == 2 then "=" else ""
  }

  /** `StdEncoding.EncodeToString`: the unpadded encoding followed by padding. */
  function Encode(b: seq<byte>): (s: string)
    ensures |s| % 4 == 0
  {
    PaddedLength(|b|);
    EncodeRaw(b) + Padding(|b|)
  }

  /** The padding completes the unpadded length to a multiple of 4. */
  lemma PaddedLength(n: nat)
    ensures ((4 * n + 2) / 3 + |Padding(n)|) % 4 == 0
  {
    var q := n / 3;
    if n % 3 == 0 {
      assert 4 * n + 2 == 3 * (4 * q) + 2;
      assert (4 * n + 2) / 3 == 4 * q;
    } else if n % 3 == 1 {
      assert 4 * n + 2 == 3 * (4 * q + 2);
      assert (4 * n + 2) / 3 == 4 * q + 2;
    } else {
      assert 4 * n + 2 == 3 * (4 * q + 3) + 1;
      assert (4 * n + 2) / 3 == 4 * q + 3;
    }
  }

  /** Go's decoder skips carriage returns and newlines wherever they occur. */
  function RemoveLineBreaks(s: string): (t: string)
    ensures '\n' !in t && '\r' !in t
  {
    if |s| == 0 then ""
    else if s[0] == '\n' || s[0] == '\r' then RemoveLineBreaks(s[1..])
    else [s[0]] + RemoveLineBreaks(s[1..])
  }

  /** Decoding of groups of 4 characters; the last group may hold 2 or 3.
      A lone final character and any character outside the alphabet (padding
      included) are errors. Unused low bits of a short group are ignored, as
      in Go's non-strict mode. */
  function DecodeGroups(s: string): (r: Option<seq<byte>>)
    decreases |s|
  {
    if |s| == 0 then Some([])
    else if |s| == 1 || !IsDigit(s[0]) || !IsDigit(s[1]) then None
    else
      var v0 := Sextet(s[0]);
      var v1 := Sextet(s[1]);
      var first := (v0 * 4 + v1 / 16) as byte;
      if |s| == 2 then Some([first])
      else if !IsDigit(s[2]) then None
      else
        var v2 := Sextet(s[2]);
        var second := (v1 % 16 * 16 + v2 / 4) as byte;
        if |s| == 3 then Some([first, second])
        else if !IsDigit(s[3]) then None
        else
          var third := (v2 % 4 * 64 + Sextet(s[3])) as byte;
          match DecodeGroups(s[4..])
          case None => None
          case Some(rest) => Some([first, second, third] + rest)
  }

  /** Line breaks are the only characters the decoder skips: every other one survives. */
  lemma {:induction false} RemoveLineBreaksKeeps(s: string, i: nat)
    requires i < |s| && s[i] != '\n' && s[i] != '\r'
    ensures s[i] in RemoveLineBreaks(s)
    decreases |s|
  {
    if i > 0 {
      assert s[1..][i - 1] == s[i];
      RemoveLineBreaksKeeps(s[1..], i - 1);
    }
  }

  /** A character outside the alphabet, wherever it stands, makes decoding fail. */
  lemma {:induction false} DecodeGroupsRejects(s: string, c: char)
    requires c in s && !IsDigit(c)
    ensures DecodeGroups(s) == None
    decreases |s|
  {
    if |s| >= 4 && IsDigit(s[0]) && IsDigit(s[1]) && IsDigit(s[2]) && IsDigit(s[3]) {
      var i :| 0 <= i < |s| && s[i] == c;
      assert s[4..][i - 4] == c;
      DecodeGroupsRejects(s[4..], c);
    }
  }

  /** `RawStdEncoding.DecodeString`; None is the error Go reports. */
  function DecodeRaw(s: string): Option<seq<byte>>
  {
    DecodeGroups(RemoveLineBreaks(s))
  }

  /** Decoding rejects a string holding a character outside the standard
      alphabet other than a line break, such as the `-` and `_` of the
      URL-safe alphabet of section 5 of RFC 4648. */
  lemma NonAlphabetRejected(s: string, i: nat)
    requires i < |s| && !IsDigit(s[i]) && s[i] != '\n' && s[i] != '\r'
    ensures DecodeRaw(s) == None
  {
    RemoveLineBreaksKeeps(s, i);
    DecodeGroupsRejects(RemoveLineBreaks(s), s[i]);
  }

  lemma {:induction false} NoLineBreaksInAlphabet(s: string)
    requires forall i | 0 <= i < |s| :: IsDigit(s[i])
    ensures RemoveLineBreaks(s) == s
    decreases |s|
  {
    if |s| > 0 {
      assert IsDigit(s[0]);
      NoLineBreaksInAlphabet(s[1..]);
      assert s == [s[0]] + s[1..];
    }
  }

  lemma FirstByteRoundTrip(b0: int, b1: int)
    requires 0 <= b0 < 256 && 0 <= b1 < 256
    ensures (b0 / 4) * 4 + (b0 % 4 * 16 + b1 / 16) / 16 == b0
  {
  }

  lemma SecondByteRoundTrip(b0: int, b1: int, b2: int)
    requires 0 <= b0 < 256 && 0 <= b1 < 256 && 0 <= b2 < 256
    ensures (b0 % 4 * 16 + b1 / 16) % 16 * 16 + (b1 % 16 * 4 + b2 / 64) / 4 == b1
  {
  }

  lemma ThirdByteRoundTrip(b1: int, b2: int)
    requires 0 <= b1 < 256 && 0 <= b2 < 256
    ensures (b1 % 16 * 4 + b2 / 64) % 4 * 64 + b2 % 64 == b2
  {
  }

  /** A final single byte decodes back from its two characters. */
  lemma DecodeOneByte(x: byte)
    ensures DecodeGroups(Group1(x)) == Some([x])
  {
    FirstByteRoundTrip(x as int, 0);
  }

  /** A final pair of bytes decodes back from its three characters. */
  lemma DecodeTwoBytes(x: byte, y: byte)
    ensures DecodeGroups(Group2(x, y)) == Some([x, y])
  {
    FirstByteRoundTrip(x as int, y as int);
    SecondByteRoundTrip(x as int, y as int, 0);
  }

  /** A full group decodes back to its three bytes, ahead of whatever the rest
      decodes to. */
  lemma DecodeThreeBytes(x: byte, y: byte, z: byte, rest: string)
    ensures DecodeGroups(Group3(x, y, z) + rest)
         == match DecodeGroups(rest)
            case None => None
            case Some(t) => Some([x, y, z] + t)
  {
    var s := Group3(x, y, z) + rest;
    FirstByteRoundTrip(x as int, y as int);
    SecondByteRoundTrip(x as int, y as int, z as int);
    ThirdByteRoundTrip(y as int, z as int);
    assert s[4..] == rest;
  }

  /** Decoding the unpadded encoding of any bytes gives those bytes back. */
  lemma {:induction false} DecodeGroupsEncodeRaw(b: seq<byte>)
    ensures DecodeGroups(EncodeRaw(b)) == Some(b)
    decreases |b|
  {
    if |b| == 1 {
      DecodeOneByte(b[0]);
      assert b == [b[0]];
    } else if |b| == 2 {
      DecodeTwoBytes(b[0], b[1]);
      assert b == [b[0], b[1]];
    } else if |b| >= 3 {
      DecodeThreeBytes(b[0], b[1], b[2], EncodeRaw(b[3..]));
      DecodeGroupsEncodeRaw(b[3..]);
      assert b == [b[0], b[1], b[2]] + b[3..];
    }
  }

  /** Section 3.2 of RFC 4648 round trip: the unpadded decoder reads back the
      unpadded encoder's output. */
  lemma DecodeRawEncodeRaw(b: seq<byte>)
    ensures DecodeRaw(EncodeRaw(b)) == Some(b)
  {
    EncodeRawInAlphabet(b);
    NoLineBreaksInAlphabet(EncodeRaw(b));
    DecodeGroupsEncodeRaw(b);
  }

  /** Drops the (at most two) `=` characters that close a padded encoding. */
  function WithoutPadding(s: string): string
  {
    if |s| >= 2 && s[|s| - 2] == '=' && s[|s| - 1] == '=' then s[..|s| - 2]
    else if |s| >= 1 && s[|s| - 1] == '=' then s[..|s| - 1]
    else s
  }

  /** Dropping the padding leaves any text that does not itself end in `=`. */
  lemma StripPadding(raw: string, n: nat)
    requires |raw| >= 1 ==> raw[|raw| - 1] != '='
    ensures WithoutPadding(raw + Padding(n)) == raw
  {
    var s := raw + Padding(n);
    if n % 3 == 1 {
      assert s[..|s| - 2] == raw;
    } else if n % 3 == 2 {
      assert s[..|s| - 1] == raw;
    } else {
      assert s == raw;
    }
  }

  /** The padded encoding is the unpadded one followed only by `=`: a reader that
      drops the padding and decodes recovers the bytes. */
  lemma DecodePaddedEncoding(b: seq<byte>)
    ensures DecodeRaw(WithoutPadding(Encode(b))) == Some(b)
  {
    var raw := EncodeRaw(b);
    if |raw| >= 1 {
      EncodeRawInAlphabet(b);
      assert IsDigit(raw[|raw| - 1]);
    }
    StripPadding(raw, |b|);
    DecodeRawEncodeRaw(b);
  }
}

=== FILE: client.dfy ===
/** internal/client/client.go and internal/client/access_token.go: the client
    state (credentials, bearer-token cache, generic cache), the two request
    builder factories, and the token cache's check-then-refresh step. Each
    locked region is one atomic step here; the clock is the parameter `now`
    (Unix time in nanoseconds). */
module Client {
  import opened Wrappers
  import opened Text
  import Base64
  import opened Wire
  import Request
  import Url

  /** The cached bearer token; `expires` is in Unix seconds, None before the
      first refresh. */
  datatype TokenCache = TokenCache(token: string, expires: Option<int>)

  const NoToken := TokenCache("", None)

  /** The client; `cache` is the generic cache, which only ever holds the
      service-account listing. */
  datatype Client = Client(
    apiKey: string,
    apiSecret: string,
    accessToken: TokenCache,
    cache: map<string, seq<ServiceAccount>>)

  const BaseApiUrl := "https://confluent.cloud/api/"
  const AccessTokenEndpoint := "access_tokens"

  /** An operation on the client: its result, the client afterwards, and the
      requests handed to `ExecuteAndRetryOn429`, in order. */
  datatype Step<T> = Step(result: Result<T, Request.Error>, client: Client, sent: seq<Request.Request>)

  /** `New`: the credentials, no token yet, and an empty cache. */
  function New(apiKey: string, apiSecret: string): (c: Client)
    ensures c.apiKey == apiKey && c.apiSecret == apiSecret
    ensures c.accessToken == NoToken && c.cache == map[]
    ensures forall parse: seq<byte> -> Option<int> :: TokenInvariant(c.accessToken, parse)
  {
    Client(apiKey, apiSecret, NoToken, map[])
  }

  /** `RequestBuilder`: Basic authentication with the stored key and secret
      against the control-plane base URL. */
  function RequestBuilder(c: Client): (r: Request.Request)
    ensures r.segments == [BaseApiUrl]
    ensures Request.BasicCredentials(r.authHeader) == Some(Utf8(c.apiKey + ":" + c.apiSecret))
    ensures r.body == None && r.query == map[]
  {
    Request.NewRequestWithBasicAuth(BaseApiUrl, c.apiKey, c.apiSecret)
  }

  /** The control-plane base URL is absolute, so every request built on it resolves. */
  lemma BaseApiUrlIsAbsolute()
    ensures Url.Parse(BaseApiUrl).scheme != ""
  {
    assert BaseApiUrl == "https" + "://" + "confluent.cloud" + "/api/";
    Url.ParseBase("https", "confluent.cloud", "/api/");
  }

  // ---------------------------------------------------------------------
  // Freshness

  const NanosPerSecond := 1_000_000_000
  const RefreshMargin := 5 * 60 * NanosPerSecond

  /** `time.Until(expires).Minutes() > 5` for a non-empty token with an expiry. */
  predicate Fresh(t: TokenCache, now: int)
  {
    t.token != "" && t.expires.Some? && t.expires.value * NanosPerSecond - now > RefreshMargin
  }

  // ---------------------------------------------------------------------
  // Refresh

  const IndexPanic := "index out of range reading the claims segment"
  const Base64Panic := "illegal base64 data in the claims segment"

  /** The claims segment: piece [1] of the token split at `.`. */
  function ClaimsSegment(token: string): Option<string>
  {
    var parts := Split(token, '.');
    if |parts| >= 2 then Some(parts[1]) else None
  }

  /** The `exp` claim, where a claims object that does not parse leaves it 0.
      `parseExp` is the JSON decoder of the claims. */
  function ExpiryOf(claims: seq<byte>, parseExp: seq<byte> -> Option<int>): int
  {
    match parseExp(claims)
    case Some(exp) => exp
    case None => 0
  }

  /** The expiry a refresh stores for `token`, or the panic it hits. */
  function TokenExpiry(token: string, parseExp: seq<byte> -> Option<int>): Result<int, Request.Error>
  {
    match ClaimsSegment(token)
    case None => Err(Request.Panic(IndexPanic))
    case Some(segment) =>
      match Base64.DecodeRaw(segment)
      case None => Err(Request.Panic(Base64Panic))
      case Some(claims) => Ok(ExpiryOf(claims, parseExp))
  }

  /** The cache holds nothing, or a token together with the expiry its claims carry. */
  predicate TokenInvariant(t: TokenCache, parseExp: seq<byte> -> Option<int>)
  {
    t == NoToken || (t.expires.Some? && TokenExpiry(t.token, parseExp) == Ok(t.expires.value))
  }

  /** The token-issuance request: a POST of `{}` to `access_tokens`, Basic auth. */
  function AccessTokenRequest(c: Client): (r: Request.Request)
    ensures r.segments == [BaseApiUrl, AccessTokenEndpoint]
    ensures r.body == Some(EmptyObject) && r.httpMethod == Request.Post
    ensures r.authHeader == RequestBuilder(c).authHeader
  {
    Request.SetMethod(
      Request.SetBody(Request.Endpoint(RequestBuilder(c), [AccessTokenEndpoint]), EmptyObject),
      Request.Post)
  }

  /** What the refresh sees of the world: the network answering the issuance
      request, and the JSON decoder of the claims. */
  datatype TokenSource = TokenSource(
    net: nat -> Request.Outcome<AccessTokenResponse>,
    parseExp: seq<byte> -> Option<int>)

  /** The token in the issuance reply, when the exchange succeeded and the body
      decodes. No status check is made: any non-429 answer is decoded. */
  function IssuedToken(c: Client, src: TokenSource): Option<string>
  {
    var run := Request.ExecuteAndRetryOn429(AccessTokenRequest(c), src.net);
    if run.result.Ok? && run.result.value.payload.Some? then Some(run.result.value.payload.value.token)
    else None
  }

  /** `generateAccessToken`. */
  function GenerateAccessToken(c: Client, src: TokenSource): (s: Step<()>)
    ensures s.sent == [AccessTokenRequest(c)]
    ensures s.result.Err? ==> s.client == c
    ensures Request.ExecuteAndRetryOn429(AccessTokenRequest(c), src.net).result.Err? ==>
              s.result == Err(Request.ExecuteAndRetryOn429(AccessTokenRequest(c), src.net).result.error)
    ensures var run := Request.ExecuteAndRetryOn429(AccessTokenRequest(c), src.net);
            run.result.Ok? && run.result.value.payload.None? ==> s.result == Err(Request.Undecodable)
    ensures IssuedToken(c, src).Some? && TokenExpiry(IssuedToken(c, src).value, src.parseExp).Err? ==>
              s.result == Err(TokenExpiry(IssuedToken(c, src).value, src.parseExp).error)
    ensures s.result.Ok? <==> IssuedToken(c, src).Some? && TokenExpiry(IssuedToken(c, src).value, src.parseExp).Ok?
    ensures s.result.Ok? ==>
              s.client == c.(accessToken := TokenCache(IssuedToken(c, src).value,
                                                       Some(TokenExpiry(IssuedToken(c, src).value, src.parseExp).value)))
  {
    var request := AccessTokenRequest(c);
    var run := Request.ExecuteAndRetryOn429(request, src.net);
    match run.result
    case Err(e) => Step(Err(e), c, [request])
    case Ok(response) =>
      match response.payload
      case None => Step(Err(Request.Undecodable), c, [request])
      case Some(reply) =>
        match TokenExpiry(reply.token, src.parseExp)
        case Err(e) => Step(Err(e), c, [request])
        case Ok(exp) => Step(Ok(()), c.(accessToken := TokenCache(reply.token, Some(exp))), [request])
  }

  /** `GetAccessToken`: the cached token when fresh, otherwise one refresh. */
  function GetAccessToken(c: Client, now: int, src: TokenSource): (s: Step<string>)
    ensures Fresh(c.accessToken, now) ==> s == Step(Ok(c.accessToken.token), c, [])
    ensures !Fresh(c.accessToken, now) ==> s.sent == [AccessTokenRequest(c)]
    ensures s.result.Err? ==> s.client == c
    ensures s.result.Ok? ==> s.result.value == s.client.accessToken.token && s.result.value != ""
    ensures s.client == c.(accessToken := s.client.accessToken)
    ensures !Fresh(c.accessToken, now) && s.result.Ok? ==>
              s.client.accessToken == GenerateAccessToken(c, src).client.accessToken
    ensures !Fresh(c.accessToken, now) ==>
              var g := GenerateAccessToken(c, src);
              s.client == g.client && s.sent == g.sent
              && s.result == (if g.result.Ok? then Ok(g.client.accessToken.token) else Err(g.result.error))
  {
    if Fresh(c.accessToken, now) then Step(Ok(c.accessToken.token), c, [])
    else
      var g := GenerateAccessToken(c, src);
      match g.result
      case Err(e) => Step(Err(e), g.client, g.sent)
      case Ok(_) =>
        assert ClaimsSegment(g.client.accessToken.token).Some?;
        Step(Ok(g.client.accessToken.token), g.client, g.sent)
  }

  /** A refresh is made exactly when the cached token is not fresh. */
  lemma RefreshIffStale(c: Client, now: int, src: TokenSource)
    ensures GetAccessToken(c, now, src).sent == [] <==> Fresh(c.accessToken, now)
  {
  }

  /** Every step keeps the token and its expiry consistent. */
  lemma GetAccessTokenKeepsInvariant(c: Client, now: int, src: TokenSource)
    requires TokenInvariant(c.accessToken, src.parseExp)
    ensures TokenInvariant(GetAccessToken(c, now, src).client.accessToken, src.parseExp)
  {
  }

  /** Refresh correctness: for a token `header.payload.signature`
      whose payload is the unpadded base 64 of some claims, the stored expiry is
      the `exp` of those claims (0 when they do not parse). */
  lemma {:induction false} ClaimsExpiryStored(header: string, claims: seq<byte>, signature: string,
                                              parseExp: seq<byte> -> Option<int>)
    requires '.' !in header
    ensures TokenExpiry(header + "." + Base64.EncodeRaw(claims) + "." + signature, parseExp)
         == Ok(ExpiryOf(claims, parseExp))
  {
    var payload := Base64.EncodeRaw(claims);
    Base64.EncodeRawAvoids(claims, '.');
    SecondPiece(header, payload, signature, '.');
    assert header + "." + payload + "." + signature == header + ['.'] + payload + ['.'] + signature;
    Base64.DecodeRawEncodeRaw(claims);
  }

  /** A token without a dot has no claims segment: the refresh panics on it. */
  lemma DotlessTokenPanics(token: string, parseExp: seq<byte> -> Option<int>)
    requires '.' !in token
    ensures TokenExpiry(token, parseExp) == Err(Request.Panic(IndexPanic))
  {
    SplitAfterPlain(token, "", '.');
    assert token + "" == token;
  }

  /** A stale cache and an issued token without a dot: the refresh panics. */
  lemma DotlessRefreshPanics(c: Client, now: int, src: TokenSource)
    requires !Fresh(c.accessToken, now)
    requires IssuedToken(c, src).Some? && '.' !in IssuedToken(c, src).value
    ensures GetAccessToken(c, now, src) == Step(Err(Request.Panic(IndexPanic)), c, [AccessTokenRequest(c)])
  {
    DotlessTokenPanics(IssuedToken(c, src).value, src.parseExp);
  }

  /** Claims in the URL-safe alphabet, as JWTs carry them (a `-` or `_`), are
      not standard base 64: the refresh panics on them. */
  lemma UrlSafeClaimsPanic(header: string, payload: string, signature: string, i: nat,
                           parseExp: seq<byte> -> Option<int>)
    requires '.' !in header && '.' !in payload
    requires i < |payload| && (payload[i] == '-' || payload[i] == '_')
    ensures TokenExpiry(header + "." + payload + "." + signature, parseExp) == Err(Request.Panic(Base64Panic))
  {
    SecondPiece(header, payload, signature, '.');
    assert header + "." + payload + "." + signature == header + ['.'] + payload + ['.'] + signature;
    Base64.NonAlphabetRejected(payload, i);
  }

  /** When the claims do not parse, the stored expiry is the epoch, so from then
      on every call refreshes again. */
  lemma UnparsedClaimsAlwaysRefresh(c: Client, now: int, src: TokenSource, later: int)
    requires GetAccessToken(c, now, src).result.Ok? && !Fresh(c.accessToken, now)
    requires src.parseExp(Base64.DecodeRaw(ClaimsSegment(IssuedToken(c, src).value).value).value) == None
    requires later >= 0
    ensures GetAccessToken(GetAccessToken(c, now, src).client, later, src).sent != []
  {
  }

  /** A token refreshed with expiry `exp` is reused, with no request, by any
      later call made more than five minutes before `exp`. */
  lemma RefreshedTokenReused(c: Client, now: int, src: TokenSource, later: int, src2: TokenSource)
    requires GetAccessToken(c, now, src).result.Ok?
    requires GetAccessToken(c, now, src).client.accessToken.expires.value * NanosPerSecond - later > RefreshMargin
    ensures GetAccessToken(GetAccessToken(c, now, src).client, later, src2)
         == Step(GetAccessToken(c, now, src).result, GetAccessToken(c, now, src).client, [])
  {
  }

  /** `KafkaRestRequestBuilder`: a token error is passed on and no request is
      built; otherwise Bearer authentication with the token just obtained,
      against the given endpoint. */
  function KafkaRestRequestBuilder(c: Client, endpoint: string, now: int, src: TokenSource)
    : (s: Step<Request.Request>)
    ensures s.client == GetAccessToken(c, now, src).client && s.sent == GetAccessToken(c, now, src).sent
    ensures s.result.Err? <==> GetAccessToken(c, now, src).result.Err?
    ensures s.result.Err? ==> s.result.error == GetAccessToken(c, now, src).result.error
    ensures s.result.Ok? ==> s.result.value.segments == [endpoint]
    ensures s.result.Ok? ==> Request.BearerToken(s.result.value.authHeader) == Some(s.client.accessToken.token)
    ensures s.result.Ok? ==> s.result.value.body == None && s.result.value.query == map[]
  {
    var t := GetAccessToken(c, now, src);
    match t.result
    case Err(e) => Step(Err(e), t.client, t.sent)
    case Ok(token) => Step(Ok(Request.NewRequestWithBearerAuth(endpoint, token)), t.client, t.sent)
  }
}

=== FILE: framework.dfy ===
/** The slice of the Terraform plugin framework the resources rely on: string
    attribute values, which may be null or unknown, and error diagnostics. */
module Framework {
  import opened Wrappers
  import Request
  import Client

  /** A `types.String`: null, unknown (during planning) or a known value. */
  datatype TfString = Null | Unknown | Known(value: string)

  /** `ValueString()`: the value, or "" for null and unknown. */
  function ValueString(v: TfString): string
  {
    if v.Known? then v.value else ""
  }

  /** The detail of a diagnostic: fixed text, or the error it reports. */
  datatype Detail = Text(text: string) | Cause(error: Request.Error)

  /** Every diagnostic these resources add is an error. */
  datatype Diagnostic = Diagnostic(summary: string, detail: Detail)

  /** The summary Terraform reports when the plugin process ends in a Go panic. */
  const PluginCrashed := "Plugin did not respond"

  /** A step that ended in a Go panic. */
  predicate Panicked<T>(r: Result<T, Request.Error>)
  {
    r.Err? && r.error.Panic?
  }

  /** The one diagnostic a panic leaves: the process ends, the diagnostics
      gathered so far are lost and Terraform reports the crash. */
  function Crashed(cause: Request.Error): Diagnostic
  {
    Diagnostic(PluginCrashed, Cause(cause))
  }

  /** The diagnostic an operation adds for `err` under `summary`, unless `err`
      is a panic, which ends the operation with the crash instead. */
  function Report(summary: string, err: Request.Error): Diagnostic
  {
    if err.Panic? then Crashed(err) else Diagnostic(summary, Cause(err))
  }

  /** What one resource operation leaves behind: the state it writes, its
      diagnostics, the client after it and every request it sent. */
  datatype Effect<S> = Effect(state: S, diags: seq<Diagnostic>, client: Client.Client, sent: seq<Request.Request>)
}

=== FILE: provider.dfy ===
/** internal/provider.go: provider configuration. Each credential comes from
    the configuration when it is set there (even to ""), otherwise from the
    environment; a missing key and a missing secret are reported separately,
    and only a complete configuration builds the one shared client. */
module Provider {
  import opened Wrappers
  import opened Client
  import opened Framework

  const ApiKeyVariable := "CONFLUENT_CLOUD_API_KEY"
  const ApiSecretVariable := "CONFLUENT_CLOUD_API_SECRET"

  const MissingKey := Diagnostic("Missing Confluent Cloud API Key",
                                 Text("Provider requires Confluent Cloud Cloud api key to function"))
  const MissingSecret := Diagnostic("Missing Confluent Cloud API Secret",
                                    Text("Provider requires Confluent Cloud Cloud api secret to function"))

  datatype ProviderModel = ProviderModel(apiKey: TfString, apiSecret: TfString)

  /** `os.Getenv`: the value, or "" for an unset variable. */
  function Getenv(env: map<string, string>, name: string): string
  {
    if name in env then env[name] else ""
  }

  /** A configured value (including an unknown one, read as "") wins over the environment. */
  function ResolveCredential(config: TfString, fallback: string): (v: string)
    ensures config.Null? ==> v == fallback
    ensures config.Known? ==> v == config.value
    ensures config.Unknown? ==> v == ""
  {
    if config.Null? then fallback else ValueString(config)
  }

  /** The provider's data: the client handed to resources and to data sources. */
  datatype Configured = Configured(diags: seq<Diagnostic>, resourceData: Option<Client>, dataSourceData: Option<Client>)

  function Configure(config: ProviderModel, env: map<string, string>): (r: Configured)
    ensures var key := ResolveCredential(config.apiKey, Getenv(env, ApiKeyVariable));
            var secret := ResolveCredential(config.apiSecret, Getenv(env, ApiSecretVariable));
            (MissingKey in r.diags <==> key == "")
            && (MissingSecret in r.diags <==> secret == "")
            && (forall i | 0 <= i < |r.diags| :: r.diags[i] in {MissingKey, MissingSecret})
            && r.diags == (if key == "" then [MissingKey] else []) + (if secret == "" then [MissingSecret] else [])
            && (r.resourceData.Some? <==> r.diags == [])
            && (r.resourceData.Some? ==> r.resourceData.value == New(key, secret))
    ensures r.dataSourceData == r.resourceData
  {
    var key := ResolveCredential(config.apiKey, Getenv(env, ApiKeyVariable));
    var secret := ResolveCredential(config.apiSecret, Getenv(env, ApiSecretVariable));
    var diags := (if key == "" then [MissingKey] else []) + (if secret == "" then [MissingSecret] else []);
    if diags != [] then Configured(diags, None, None)
    else
      var client := New(key, secret);
      Configured([], Some(client), Some(client))
  }

  /** An explicitly empty key in the configuration hides the environment's key
      and stops configuration. */
  lemma ExplicitEmptyKeyOverridesEnvironment(config: ProviderModel, env: map<string, string>)
    requires config.apiKey == Known("")
    ensures MissingKey in Configure(config, env).diags
    ensures Configure(config, env).resourceData == None
  {
  }

  /** With nothing configured, the environment alone decides. */
  lemma EnvironmentFallback(env: map<string, string>)
    requires Getenv(env, ApiKeyVariable) != "" && Getenv(env, ApiSecretVariable) != ""
    ensures Configure(ProviderModel(Null, Null), env).resourceData
         == Some(New(env[ApiKeyVariable], env[ApiSecretVariable]))
  {
  }
}

=== FILE: request.dfy ===
/** internal/client/request/request.go: the request descriptor, its builder
    steps, the preparation of an HTTP request (URL, headers, query), `Execute`
    with its 401 rule, and `ExecuteAndRetryOn429` with its fixed backoff
    schedule. The network is a function from the attempt number to the outcome
    of that attempt; sleeps are recorded, not performed. */
module Request {
  import opened Wrappers
  import opened Text
  import Base64
  import Url
  import opened Wire

  datatype Method = Unset | Get | Post | Put | Delete

  /** The method string handed to `http.NewRequest`, which reads "" as GET. */
  function MethodName(m: Method): string
  {
    match m
    case Unset => "GET"
    case Get => "GET"
    case Post => "POST"
    case Put => "PUT"
    case Delete => "DELETE"
  }

  /** A request whose method was never set goes out as a GET; the four setters
      give four different methods. */
  lemma MethodNames(m: Method, n: Method)
    ensures MethodName(Unset) == MethodName(Get) == "GET"
    ensures m != Unset && n != Unset ==> (MethodName(m) == MethodName(n) <==> m == n)
  {
  }

  /** The request descriptor. `query` stands for Go's map, where a nil map and an
      empty one behave alike. */
  datatype Request = Request(
    segments: seq<string>,
    authHeader: string,
    body: Option<Body>,
    httpMethod: Method,
    query: map<string, string>)

  // ---------------------------------------------------------------------
  // Construction and builder steps

  const BasicPrefix := "Basic "
  const BearerPrefix := "Bearer "

  /** The Basic credentials of section 2 of RFC 7617: the user, a colon and the
      password, as UTF-8 bytes in padded base 64. */
  function BasicAuthHeader(user: string, password: string): (h: string)
    ensures var u := Utf8(user + ":" + password);
            h == BasicPrefix + Base64.EncodeRaw(u) + Base64.Padding(|u|)
    ensures (|h| - |BasicPrefix|) % 4 == 0
    ensures BasicCredentials(h) == Some(Utf8(user + ":" + password))
    ensures BearerToken(h) == None
  {
    var credentials := Base64.Encode(Utf8(user + ":" + password));
    BasicHeaderDecodes(credentials);
    Base64.DecodePaddedEncoding(Utf8(user + ":" + password));
    BasicIsNotBearer(credentials);
    BasicPrefix + credentials
  }

  /** What a server reading a Basic Authorization header recovers from it. */
  function BasicCredentials(header: string): Option<seq<byte>>
  {
    if |header| >= |BasicPrefix| && header[..|BasicPrefix|] == BasicPrefix then
      Base64.DecodeRaw(Base64.WithoutPadding(header[|BasicPrefix|..]))
    else None
  }

  /** What a server reading a Bearer Authorization header (section 2.1 of
      RFC 6750) recovers from it. */
  function BearerToken(header: string): Option<string>
  {
    if |header| >= |BearerPrefix| && header[..|BearerPrefix|] == BearerPrefix then
      Some(header[|BearerPrefix|..])
    else None
  }

  /** `NewRequestWithBasicAuth`: one segment, the base URL, and a header from
      which the server recovers exactly `user:password`: the prefix and the
      padded standard encoding. */
  function NewRequestWithBasicAuth(baseUrl: string, user: string, password: string): (r: Request)
    ensures r.segments == [baseUrl]
    ensures r.body == None && r.httpMethod == Unset && r.query == map[]
    ensures BasicCredentials(r.authHeader) == Some(Utf8(user + ":" + password))
    ensures var u := Utf8(user + ":" + password);
            r.authHeader == BasicPrefix + Base64.EncodeRaw(u) + Base64.Padding(|u|)
    ensures BearerToken(r.authHeader) == None
  {
    Request([baseUrl], BasicAuthHeader(user, password), None, Unset, map[])
  }

  /** A server reading a Basic header decodes what follows the prefix. */
  lemma BasicHeaderDecodes(credentials: string)
    ensures BasicCredentials(BasicPrefix + credentials) == Base64.DecodeRaw(Base64.WithoutPadding(credentials))
  {
    var header := BasicPrefix + credentials;
    assert header[..|BasicPrefix|] == BasicPrefix;
    assert header[|BasicPrefix|..] == credentials;
  }

  /** A Basic header never reads as a Bearer one. */
  lemma BasicIsNotBearer(credentials: string)
    ensures BearerToken(BasicPrefix + credentials) == None
  {
    var header := BasicPrefix + credentials;
    assert header[1] == 'a' && BearerPrefix[1] == 'e';
  }

  /** `NewRequestWithBearerAuth`: one segment, the base URL, and a header from
      which the server recovers exactly the token. */
  function NewRequestWithBearerAuth(baseUrl: string, token: string): (r: Request)
    ensures r.segments == [baseUrl]
    ensures r.body == None && r.httpMethod == Unset && r.query == map[]
    ensures BearerToken(r.authHeader) == Some(token)
    ensures BasicCredentials(r.authHeader) == None
  {
    var header := BearerPrefix + token;
    assert header[..|BearerPrefix|] == BearerPrefix;
    assert header[|BearerPrefix|..] == token;
    assert |header| < |BasicPrefix| || header[..|BasicPrefix|] != BasicPrefix by {
      if |header| >= |BasicPrefix| {
        assert header[1] == 'e' && BasicPrefix[1] == 'a';
      }
    }
    Request([baseUrl], header, None, Unset, map[])
  }

  /** `Endpoint(endpoints...)`: append segments, in order. */
  function Endpoint(r: Request, more: seq<string>): Request
  {
    r.(segments := r.segments + more)
  }

  function SetQueryParams(r: Request, params: map<string, string>): Request
  {
    r.(query := params)
  }

  function SetBody(r: Request, body: Body): Request
  {
    r.(body := Some(body))
  }

  function SetMethod(r: Request, m: Method): Request
  {
    r.(httpMethod := m)
  }

  /** One builder call, so that a chain of calls can be reasoned about as a whole. */
  datatype BuildStep =
    | AddEndpoints(more: seq<string>)
    | SetQuery(params: map<string, string>)
    | SetBodyTo(body: Body)
    | SetMethodTo(m: Method)

  function ApplyStep(r: Request, s: BuildStep): Request
  {
    match s
    case AddEndpoints(more) => Endpoint(r, more)
    case SetQuery(params) => SetQueryParams(r, params)
    case SetBodyTo(body) => SetBody(r, body)
    case SetMethodTo(m) => SetMethod(r, m)
  }

  /** A chain of builder calls, applied left to right. */
  function Build(r: Request, steps: seq<BuildStep>): Request
    decreases |steps|
  {
    if |steps| == 0 then r else Build(ApplyStep(r, steps[0]), steps[1..])
  }

  /** All segments added by the chain, in call order. */
  function AddedSegments(steps: seq<BuildStep>): seq<string>
  {
    if |steps| == 0 then []
    else
      var last := steps[|steps| - 1];
      AddedSegments(steps[..|steps| - 1]) + (if last.AddEndpoints? then last.more else [])
  }

  /** The method of the last method call in the chain, else `m`. */
  function LastMethod(steps: seq<BuildStep>, m: Method): Method
  {
    if |steps| == 0 then m
    else if steps[|steps| - 1].SetMethodTo? then steps[|steps| - 1].m
    else LastMethod(steps[..|steps| - 1], m)
  }

  /** The body of the last `SetBody` call in the chain, else `b`. */
  function LastBody(steps: seq<BuildStep>, b: Option<Body>): Option<Body>
  {
    if |steps| == 0 then b
    else if steps[|steps| - 1].SetBodyTo? then Some(steps[|steps| - 1].body)
    else LastBody(steps[..|steps| - 1], b)
  }

  /** The map of the last `SetQueryParams` call in the chain, else `q`. */
  function LastQuery(steps: seq<BuildStep>, q: map<string, string>): map<string, string>
  {
    if |steps| == 0 then q
    else if steps[|steps| - 1].SetQuery? then steps[|steps| - 1].params
    else LastQuery(steps[..|steps| - 1], q)
  }

  lemma {:induction false} BuildSnoc(r: Request, steps: seq<BuildStep>, s: BuildStep)
    ensures Build(r, steps + [s]) == ApplyStep(Build(r, steps), s)
    decreases |steps|
  {
    if |steps| == 0 {
      assert steps + [s] == [s];
      assert [s][1..] == [];
    } else {
      assert (steps + [s])[0] == steps[0];
      assert (steps + [s])[1..] == steps[1..] + [s];
      BuildSnoc(ApplyStep(r, steps[0]), steps[1..], s);
    }
  }

  /** A chain of builder calls appends its segments in order, keeps the header,
      and for method, body and query the last call wins. */
  lemma {:induction false} BuildLastWriteWins(r: Request, steps: seq<BuildStep>)
    ensures Build(r, steps).segments == r.segments + AddedSegments(steps)
    ensures Build(r, steps).authHeader == r.authHeader
    ensures Build(r, steps).httpMethod == LastMethod(steps, r.httpMethod)
    ensures Build(r, steps).body == LastBody(steps, r.body)
    ensures Build(r, steps).query == LastQuery(steps, r.query)
    decreases |steps|
  {
    if |steps| == 0 {
      assert r.segments + [] == r.segments;
    } else {
      var init := steps[..|steps| - 1];
      var last := steps[|steps| - 1];
      assert steps == init + [last];
      BuildSnoc(r, init, last);
      BuildLastWriteWins(r, init);
      assert r.segments + AddedSegments(init) + (if last.AddEndpoints? then last.more else [])
          == r.segments + AddedSegments(steps);
    }
  }

  // ---------------------------------------------------------------------
  // Preparing and executing one request

  datatype Header = Header(name: string, value: string)

  predicate HasHeader(hs: seq<Header>, name: string) {
    exists i | 0 <= i < |hs| :: hs[i].name == name
  }

  /** The headers `Execute` attaches. */
  function Headers(r: Request): (hs: seq<Header>)
    ensures Header("Accept", "application/json") in hs
    ensures HasHeader(hs, "Content-Type") <==> r.body.Some?
    ensures HasHeader(hs, "Authorization") <==> r.authHeader != ""
    ensures forall i | 0 <= i < |hs| && hs[i].name == "Authorization" :: hs[i].value == r.authHeader
    ensures forall i | 0 <= i < |hs| && hs[i].name == "Content-Type" :: hs[i].value == "application/json"
  {
    var accept := [Header("Accept", "application/json")];
    var content := if r.body.Some? then [Header("Content-Type", "application/json")] else [];
    var auth := if r.authHeader != "" then [Header("Authorization", r.authHeader)] else [];
    var hs := accept + content + auth;
    assert r.body.Some? ==> hs[1].name == "Content-Type";
    assert r.authHeader != "" ==> hs[|hs| - 1].name == "Authorization";
    hs
  }

  /** The HTTP request as handed to the transport. `rawQuery` is None when the
      URL's query is left as parsed, and the encoded map otherwise. */
  datatype HttpRequest = HttpRequest(
    httpMethod: string, url: string, headers: seq<Header>, body: Option<Body>,
    rawQuery: Option<map<string, string>>)

  /** Errors of the client layer, with the text the source gives them. */
  datatype Error =
    | Transport(reason: string)              // http.Client.Do failed
    | Unauthorized                           // "Unauthorized"
    | ExhaustedRetries                       // "exhausted retries"
    | UnexpectedStatus(what: string, status: int)
    | Undecodable                            // the JSON body does not decode
    | Panic(cause: string)                   // Go panics here: the process ends

  const NilUrlPanic := "nil pointer dereference resolving the URL"
  const NilResponsePanic := "nil pointer dereference reading the response status"

  /** Everything `Execute` does before the network call. */
  function Prepare(r: Request): (p: Result<HttpRequest, Error>)
    ensures p.Ok? ==> p.value.httpMethod == MethodName(r.httpMethod)
    ensures p.Err? <==> Url.ResolveSegments(r.segments).None?
    ensures p.Err? ==> p.error == Panic(NilUrlPanic)
    ensures p.Ok? ==> p.value.url == Url.ResolveSegments(r.segments).value
    ensures p.Ok? ==> p.value.headers == Headers(r) && p.value.body == r.body
    ensures p.Ok? ==> (p.value.rawQuery.Some? <==> |r.query| != 0)
    ensures p.Ok? && |r.query| != 0 ==> p.value.rawQuery == Some(r.query)
  {
    match Url.ResolveSegments(r.segments)
    case None => Err(Panic(NilUrlPanic))
    case Some(u) =>
      Ok(HttpRequest(MethodName(r.httpMethod), u, Headers(r), r.body,
                     if |r.query| != 0 then Some(r.query) else None))
  }

  /** A request whose first segment carries a scheme is always prepared. */
  lemma PrepareSucceeds(r: Request)
    requires |r.segments| >= 1 && Url.Parse(r.segments[0]).scheme != ""
    ensures Prepare(r).Ok?
  {
    Url.AbsoluteFirstSegmentResolves(r.segments);
  }

  /** A request that cannot be prepared panics on the first attempt, whatever
      the network would have answered. */
  lemma UnpreparedRequestPanics<P>(r: Request, net: nat -> Outcome<P>)
    requires Prepare(r).Err?
    ensures ExecuteAndRetryOn429(r, net) == Run([0], Err(Panic(NilUrlPanic)))
  {
    assert !RateLimited(r, net(0));
  }

  /** The result of one network round trip: a transport failure, or a status
      code with the body as the caller will decode it (None: it does not). */
  datatype Outcome<P> = TransportFailure(reason: string) | Responded(status: int, payload: Option<P>)

  datatype Response<P> = Response(status: int, payload: Option<P>)

  /** `Execute` as the source writes it: the status is read before the error, so
      a transport failure (which comes with a nil response) panics. */
  function ExecuteAsWritten<P>(r: Request, o: Outcome<P>): Result<Response<P>, Error>
  {
    match Prepare(r)
    case Err(e) => Err(e)
    case Ok(_) =>
      match o
      case TransportFailure(_) => Err(Panic(NilResponsePanic))
      case Responded(status, payload) =>
        if status == 401 then Err(Unauthorized) else Ok(Response(status, payload))
  }

  /** `Execute` with the error checked first, as evidently intended: transport
      failures come back as errors, 401 becomes "Unauthorized" whatever the body,
      and every other response is returned as it is. */
  function Execute<P>(r: Request, o: Outcome<P>): (e: Result<Response<P>, Error>)
    ensures Prepare(r).Err? ==> e == Err(Prepare(r).error)
    ensures Prepare(r).Ok? && o.TransportFailure? ==> e == Err(Transport(o.reason))
    ensures Prepare(r).Ok? && o.Responded? && o.status == 401 ==> e == Err(Unauthorized)
    ensures Prepare(r).Ok? && o.Responded? && o.status != 401 ==> e == Ok(Response(o.status, o.payload))
    ensures e.Err? ==> e.error != ExhaustedRetries
  {
    match Prepare(r)
    case Err(err) => Err(err)
    case Ok(_) =>
      match o
      case TransportFailure(reason) => Err(Transport(reason))
      case Responded(status, payload) =>
        if status == 401 then Err(Unauthorized) else Ok(Response(status, payload))
  }

  /** As written, a transport failure panics instead of being returned. */
  lemma TransportFailurePanicsAsWritten<P>(r: Request, reason: string)
    requires Prepare(r).Ok?
    ensures ExecuteAsWritten<P>(r, TransportFailure(reason)) == Err(Panic(NilResponsePanic))
    ensures Execute<P>(r, TransportFailure(reason)) == Err(Transport(reason))
  {
  }

  /** The correction changes nothing once the server has answered. */
  lemma ExecuteAgreesOnResponses<P>(r: Request, status: int, payload: Option<P>)
    ensures ExecuteAsWritten(r, Responded(status, payload)) == Execute(r, Responded(status, payload))
  {
  }

  // ---------------------------------------------------------------------
  // Retrying on 429

  /** Milliseconds slept before each attempt. */
  const Backoffs: seq<nat> := [0, 100, 200, 400, 800, 1600, 3200]

  /** A run of the retry loop: the sleeps taken, one per attempt, and the result. */
  datatype Run<P> = Run(sleeps: seq<nat>, result: Result<Response<P>, Error>)

  predicate IsRateLimited<P>(e: Result<Response<P>, Error>) {
    e.Ok? && e.value.status == 429
  }

  predicate RateLimited<P>(r: Request, o: Outcome<P>) {
    IsRateLimited(Execute(r, o))
  }

  /** The retry loop over `schedule` from attempt `i` on, where `attempt(k)` is
      the result of attempt `k`. It sleeps the schedule in order, once per
      attempt. */
  function RetryFrom<P>(schedule: seq<nat>, attempt: nat -> Result<Response<P>, Error>, i: nat): (run: Run<P>)
    requires i <= |schedule|
    ensures i < |schedule| ==> 1 <= |run.sleeps|
    ensures |run.sleeps| <= |schedule| - i
    ensures run.sleeps == schedule[i..i + |run.sleeps|]
    decreases |schedule| - i
  {
    if i == |schedule| then Run([], Err(ExhaustedRetries))
    else if IsRateLimited(attempt(i)) then
      var rest := RetryFrom(schedule, attempt, i + 1);
      assert schedule[i..i + 1 + |rest.sleeps|] == [schedule[i]] + schedule[i + 1..i + 1 + |rest.sleeps|];
      Run([schedule[i]] + rest.sleeps, rest.result)
    else Run([schedule[i]], attempt(i))
  }

  /** Every attempt of the loop but the last was answered 429, and either the
      schedule ran out on 429s with the exhausted-retries error, or the last
      attempt's result, which is not a 429, is returned. */
  lemma {:induction false} RetryFromOutcome<P>(schedule: seq<nat>, attempt: nat -> Result<Response<P>, Error>, i: nat)
    requires i <= |schedule|
    ensures var run := RetryFrom(schedule, attempt, i);
            (forall k | i <= k < i + |run.sleeps| - 1 :: IsRateLimited(attempt(k)))
            && ((i + |run.sleeps| == |schedule| && run.result == Err(ExhaustedRetries)
                 && forall k | i <= k < |schedule| :: IsRateLimited(attempt(k)))
                || (|run.sleeps| >= 1 && run.result == attempt(i + |run.sleeps| - 1)
                    && !IsRateLimited(attempt(i + |run.sleeps| - 1))))
    decreases |schedule| - i
  {
    if i < |schedule| && IsRateLimited(attempt(i)) {
      RetryFromOutcome(schedule, attempt, i + 1);
    }
  }

  /** `ExecuteAndRetryOn429`: at most seven attempts, sleeping the scheduled
      time before each; the first result that is not a 429 (an error included)
      ends the loop and is returned unchanged. */
  function ExecuteAndRetryOn429<P>(r: Request, net: nat -> Outcome<P>): (run: Run<P>)
    ensures 1 <= |run.sleeps| <= |Backoffs|
    ensures run.sleeps == Backoffs[..|run.sleeps|]
    ensures forall k | 0 <= k < |run.sleeps| - 1 :: RateLimited(r, net(k))
    ensures run.result == Err(ExhaustedRetries) ==>
              |run.sleeps| == |Backoffs| && forall k | 0 <= k < |Backoffs| :: RateLimited(r, net(k))
    ensures run.result != Err(ExhaustedRetries) ==>
              run.result == Execute(r, net(|run.sleeps| - 1)) && !RateLimited(r, net(|run.sleeps| - 1))
  {
    var attempt := (k: nat) => Execute(r, net(k));
    assert forall k: nat :: IsRateLimited(attempt(k)) == RateLimited(r, net(k));
    assert forall k: nat :: attempt(k) != Err(ExhaustedRetries);
    RetryFromOutcome(Backoffs, attempt, 0);
    RetryFrom(Backoffs, attempt, 0)
  }

  function Sum(xs: seq<nat>): nat
  {
    if |xs| == 0 then 0 else xs[0] + Sum(xs[1..])
  }

  /** Answered 429 every time, the loop makes all seven attempts, sleeps the whole
      schedule (6300 ms) and reports exhausted retries. */
  lemma AlwaysRateLimited<P>(r: Request, net: nat -> Outcome<P>)
    requires forall k | 0 <= k < |Backoffs| :: RateLimited(r, net(k))
    ensures ExecuteAndRetryOn429(r, net).sleeps == Backoffs
    ensures Sum(ExecuteAndRetryOn429(r, net).sleeps) == 6300
    ensures ExecuteAndRetryOn429(r, net).result == Err(ExhaustedRetries)
  {
    var run := ExecuteAndRetryOn429(r, net);
    assert run.result == Err(ExhaustedRetries);
    assert Backoffs[..|Backoffs|] == Backoffs;
  }

  /** The first attempt `n` that is not answered 429 ends the loop: `n + 1`
      attempts, and its result (a response or an error) is returned unchanged. */
  lemma StopsAtFirstNonRateLimited<P>(r: Request, net: nat -> Outcome<P>, n: nat)
    requires n < |Backoffs|
    requires forall k | 0 <= k < n :: RateLimited(r, net(k))
    requires !RateLimited(r, net(n))
    ensures |ExecuteAndRetryOn429(r, net).sleeps| == n + 1
    ensures ExecuteAndRetryOn429(r, net).sleeps == Backoffs[..n + 1]
    ensures ExecuteAndRetryOn429(r, net).result == Execute(r, net(n))
  {
    var run := ExecuteAndRetryOn429(r, net);
    var last := |run.sleeps| - 1;
    if run.result == Err(ExhaustedRetries) {
      assert false;
    }
    if last < n {
      assert false;
    }
    if last > n {
      assert false;
    }
  }
}

=== FILE: resource_acl.dfy ===
/** internal/resource_acl.go: the `confluentacl_acl` resource. Its attribute
    validators, the principal and composite id it builds, and its Create, Read
    and Delete steps over the ACL client. There is no update: every attribute
    forces replacement. */
module AclResource {
  import opened Wrappers
  import opened Text
  import opened Wire
  import Request
  import opened Client
  import opened Framework
  import ServiceAccounts
  import Acls
  import Url

  // ---------------------------------------------------------------------
  // Closed enumerations checked by the schema's OneOf validators

  datatype ResourceType = Topic | Group | Cluster | TransactionalId | DelegationToken
  datatype PatternType = Match | Literal | Prefixed
  datatype Operation = Read | Write | Create | Delete | Alter | Describe
                     | ClusterAction | DescribeConfigs | AlterConfigs | IdempotentWrite
  datatype Permission = Allow | Deny

  const ResourceTypeNames := ["TOPIC", "GROUP", "CLUSTER", "TRANSACTIONAL_ID", "DELEGATION_TOKEN"]
  const PatternTypeNames := ["MATCH", "LITERAL", "PREFIXED"]
  const OperationNames := ["READ", "WRITE", "CREATE", "DELETE", "ALTER", "DESCRIBE",
                           "CLUSTER_ACTION", "DESCRIBE_CONFIGS", "ALTER_CONFIGS", "IDEMPOTENT_WRITE"]
  const PermissionNames := ["ALLOW", "DENY"]

  function ResourceTypeName(t: ResourceType): (s: string)
    ensures s in ResourceTypeNames
  {
    match t
    case Topic => "TOPIC"
    case Group => "GROUP"
    case Cluster => "CLUSTER"
    case TransactionalId => "TRANSACTIONAL_ID"
    case DelegationToken => "DELEGATION_TOKEN"
  }

  /** The validator accepts exactly the listed names, each naming one value. */
  function ParseResourceType(s: string): (t: Option<ResourceType>)
    ensures t.Some? <==> s in ResourceTypeNames
    ensures t.Some? ==> ResourceTypeName(t.value) == s
  {
    if s == "TOPIC" then Some(Topic)
    else if s == "GROUP" then Some(Group)
    else if s == "CLUSTER" then Some(Cluster)
    else if s == "TRANSACTIONAL_ID" then Some(TransactionalId)
    else if s == "DELEGATION_TOKEN" then Some(DelegationToken)
    else None
  }

  lemma ResourceTypeRoundTrip(t: ResourceType)
    ensures ParseResourceType(ResourceTypeName(t)) == Some(t)
  {
  }

  function PatternTypeName(t: PatternType): (s: string)
    ensures s in PatternTypeNames
  {
    match t
    case Match => "MATCH"
    case Literal => "LITERAL"
    case Prefixed => "PREFIXED"
  }

  function ParsePatternType(s: string): (t: Option<PatternType>)
    ensures t.Some? <==> s in PatternTypeNames
    ensures t.Some? ==> PatternTypeName(t.value) == s
  {
    if s == "MATCH" then Some(Match)
    else if s == "LITERAL" then Some(Literal)
    else if s == "PREFIXED" then Some(Prefixed)
    else None
  }

  lemma PatternTypeRoundTrip(t: PatternType)
    ensures ParsePatternType(PatternTypeName(t)) == Some(t)
  {
  }

  function OperationName(o: Operation): (s: string)
    ensures s in OperationNames
  {
    match o
    case Read => "READ"
    case Write => "WRITE"
    case Create => "CREATE"
    case Delete => "DELETE"
    case Alter => "ALTER"
    case Describe => "DESCRIBE"
    case ClusterAction => "CLUSTER_ACTION"
    case DescribeConfigs => "DESCRIBE_CONFIGS"
    case AlterConfigs => "ALTER_CONFIGS"
    case IdempotentWrite => "IDEMPOTENT_WRITE"
  }

  function ParseOperation(s: string): (o: Option<Operation>)
    ensures o.Some? <==> s in OperationNames
    ensures o.Some? ==> OperationName(o.value) == s
  {
    if s == "READ" then Some(Read)
    else if s == "WRITE" then Some(Write)
    else if s == "CREATE" then Some(Create)
    else if s == "DELETE" then Some(Delete)
    else if s == "ALTER" then Some(Alter)
    else if s == "DESCRIBE" then Some(Describe)
    else if s == "CLUSTER_ACTION" then Some(ClusterAction)
    else if s == "DESCRIBE_CONFIGS" then Some(DescribeConfigs)
    else if s == "ALTER_CONFIGS" then Some(AlterConfigs)
    else if s == "IDEMPOTENT_WRITE" then Some(IdempotentWrite)
    else None
  }

  lemma OperationRoundTrip(o: Operation)
    ensures ParseOperation(OperationName(o)) == Some(o)
  {
  }

  function PermissionName(p: Permission): (s: string)
    ensures s in PermissionNames
  {
    match p
    case Allow => "ALLOW"
    case Deny => "DENY"
  }

  function ParsePermission(s: string): (p: Option<Permission>)
    ensures p.Some? <==> s in PermissionNames
    ensures p.Some? ==> PermissionName(p.value) == s
  {
    if s == "ALLOW" then Some(Allow)
    else if s == "DENY" then Some(Deny)
    else None
  }

  lemma PermissionRoundTrip(p: Permission)
    ensures ParsePermission(PermissionName(p)) == Some(p)
  {
  }

  // ---------------------------------------------------------------------
  // The cluster_id validator: the regular expression ^lkc-.+

  const ClusterPrefix := "lkc-"

  /** Positions 4 up to k hold no newline, the characters `.` can match. */
  predicate NoNewlineBefore(s: string, k: int)
  {
    forall j | 4 <= j < k && j < |s| :: s[j] != '\n'
  }

  /** The regular-expression reading: "lkc-" at the start, followed by a run
      of one or more characters other than newline (the pattern is not
      anchored at the end). */
  predicate MatchesClusterPattern(s: string)
  {
    |s| >= 4 && s[..4] == ClusterPrefix && exists k | 5 <= k <= |s| :: NoNewlineBefore(s, k)
  }

  /** The validator as a direct check: the prefix and one non-newline character. */
  function ValidClusterId(s: string): (ok: bool)
    ensures ok <==> MatchesClusterPattern(s)
  {
    if |s| >= 5 && s[..4] == ClusterPrefix && s[4] != '\n' then
      assert NoNewlineBefore(s, 5);
      true
    else
      assert |s| >= 5 && s[..4] == ClusterPrefix ==> forall k | 5 <= k <= |s| :: !NoNewlineBefore(s, k) by {
        if |s| >= 5 && s[..4] == ClusterPrefix {
          forall k | 5 <= k <= |s| ensures !NoNewlineBefore(s, k) {
            assert s[4] == '\n';
          }
        }
      }
      false
  }

  // ---------------------------------------------------------------------
  // Principal and composite id

  const UserPrefix := "User:"

  /** The user id a principal names, if it is of the form User:<decimal>. */
  function PrincipalUserId(p: string): Option<int>
  {
    if |p| >= |UserPrefix| && p[..|UserPrefix|] == UserPrefix then DecimalValue(p[|UserPrefix|..]) else None
  }

  /** `fmt.Sprintf("User:%d", userId)`: the principal names exactly that user. */
  function Principal(userId: int): (p: string)
    ensures p == UserPrefix + IntToDecimal(userId)
    ensures PrincipalUserId(p) == Some(userId)
  {
    var p := UserPrefix + IntToDecimal(userId);
    assert p[..|UserPrefix|] == UserPrefix && p[|UserPrefix|..] == IntToDecimal(userId);
    DecimalRoundTrip(userId);
    p
  }

  /** Distinct users get distinct principals. */
  lemma PrincipalInjective(a: int, b: int)
    requires Principal(a) == Principal(b)
    ensures a == b
  {
  }

  /** The resource's attributes; all of them but `id` come from configuration. */
  datatype AclModel = AclModel(
    id: TfString,
    restEndpoint: TfString,
    serviceAccountName: TfString,
    clusterId: TfString,
    resourceType: TfString,
    resourceName: TfString,
    patternType: TfString,
    host: TfString,
    operation: TfString,
    permission: TfString)

  /** The six ACL fields, in the order the id lists them. */
  function IdFields(m: AclModel): seq<string>
  {
    [ValueString(m.resourceType), ValueString(m.resourceName), ValueString(m.patternType),
     ValueString(m.host), ValueString(m.operation), ValueString(m.permission)]
  }

  /** `makeIdForAclModel`: cluster, service account and the `#`-joined fields, separated by `/`. */
  function MakeId(m: AclModel): string
  {
    ValueString(m.clusterId) + "/" + ValueString(m.serviceAccountName) + "/" + Join(IdFields(m), "#")
  }

  datatype IdParts = IdParts(clusterId: string, serviceAccountName: string, fields: seq<string>)

  /** Reading an id back: three `/`-separated parts, the last of six `#`-separated fields. */
  function ParseId(id: string): Option<IdParts>
  {
    var parts := Split(id, '/');
    if |parts| != 3 then None
    else
      var fields := Split(parts[2], '#');
      if |fields| != 6 then None else Some(IdParts(parts[0], parts[1], fields))
  }

  /** The id determines the cluster, the service account and all six fields,
      as long as none of them holds a separator. */
  lemma MakeIdParses(m: AclModel)
    requires '/' !in ValueString(m.clusterId) && '/' !in ValueString(m.serviceAccountName)
    requires forall i | 0 <= i < 6 :: '/' !in IdFields(m)[i] && '#' !in IdFields(m)[i]
    ensures ParseId(MakeId(m))
         == Some(IdParts(ValueString(m.clusterId), ValueString(m.serviceAccountName), IdFields(m)))
  {
    var fields := IdFields(m);
    var joined := Join(fields, "#");
    NotInJoin(fields, '#', '/');
    var parts := [ValueString(m.clusterId), ValueString(m.serviceAccountName), joined];
    assert Join(parts, "/") == MakeId(m) by {
      assert Join(parts[2..], "/") == joined;
      assert Join(parts[1..], "/") == parts[1] + "/" + joined;
    }
    SplitJoin(parts, '/');
    SplitJoin(fields, '#');
  }

  // ---------------------------------------------------------------------
  // Operations

  const ListAccountsFailure := "Failed to list service accounts"
  const MissingAccountPrefix := "Could not find service account with name "
  const CreateAclFailure := "Failed to create ACL"
  const ReadAclsFailure := "Failure to read all acls in cluster"
  const ManyAclsFailure := "Expected to find 1 ACL matching spec"
  const DeleteAclFailure := "Failed to delete ACL"

  /** The ACL a model describes, for the user the service account resolves to. */
  function AclFilter(m: AclModel, userId: int): (q: AclRequest)
    ensures q.principal == Principal(userId) && PrincipalUserId(q.principal) == Some(userId)
    ensures [q.resourceType, q.resourceName, q.patternType, q.host, q.operation, q.permission] == IdFields(m)
  {
    AclRequest(ValueString(m.resourceType), ValueString(m.resourceName), ValueString(m.patternType),
               Principal(userId), ValueString(m.host), ValueString(m.operation), ValueString(m.permission))
  }

  /** The state `entry` describes, keeping the id and the attributes it does not report. */
  function CopyEntry(state: AclModel, entry: AclEntry): AclModel
  {
    state.(clusterId := Known(entry.clusterId), resourceName := Known(entry.resourceName),
           resourceType := Known(entry.resourceType), patternType := Known(entry.patternType),
           host := Known(entry.host), operation := Known(entry.operation),
           permission := Known(entry.permission))
  }

  /** True when the state already says what `entry` says. */
  predicate Describes(state: AclModel, entry: AclEntry)
  {
    state.clusterId == Known(entry.clusterId) && state.resourceName == Known(entry.resourceName)
    && state.resourceType == Known(entry.resourceType) && state.patternType == Known(entry.patternType)
    && state.host == Known(entry.host) && state.operation == Known(entry.operation)
    && state.permission == Known(entry.permission)
  }

  /** The read rule: several matches leave the state unwritten (None), one
      match is copied in, no match marks the resource gone. */
  function Reconcile(state: AclModel, found: seq<AclEntry>): (r: Option<AclModel>)
    ensures r.None? <==> |found| > 1
    ensures |found| == 0 ==> r == Some(state.(id := Null))
    ensures |found| == 1 ==> r.Some? && Describes(r.value, found[0])
    ensures |found| == 1 ==> r.value.id == state.id && r.value.restEndpoint == state.restEndpoint
                             && r.value.serviceAccountName == state.serviceAccountName
  {
    if |found| > 1 then None
    else if |found| == 1 then Some(CopyEntry(state, found[0]))
    else Some(state.(id := Null))
  }

  /** A state that already describes the one match is left as it is. */
  lemma ReconcileKeepsMatchingState(state: AclModel, entry: AclEntry)
    requires Describes(state, entry)
    ensures Reconcile(state, [entry]) == Some(state)
  {
  }

  /** Reading the same answer twice changes nothing the second time. */
  lemma ReconcileIdempotent(state: AclModel, found: seq<AclEntry>)
    requires Reconcile(state, found).Some?
    ensures Reconcile(Reconcile(state, found).value, found) == Reconcile(state, found)
  {
    if |found| == 1 {
      ReconcileKeepsMatchingState(Reconcile(state, found).value, found[0]);
    }
  }

  /** `Create`: resolve the service account, then create the ACL even when the
      account was not found (user id 0), and store the plan with its id
      whatever the create returned. A panic (an endpoint without a scheme, a
      malformed token) ends the plugin: nothing is stored and only the crash
      is reported. */
  function CreateAcl(plan: AclModel, c: Client, now: int, src: TokenSource,
                     accounts: nat -> Request.Outcome<ServiceAccountResponse>, net: nat -> Request.Outcome<()>)
    : (e: Effect<Option<AclModel>>)
    ensures var name := ValueString(plan.serviceAccountName);
            var sa := ServiceAccounts.GetSaNumericId(c, name, accounts);
            (sa.result.Err? ==>
               e.state == None && e.client == sa.client && e.sent == sa.sent
               && e.diags == [if sa.result.error.Panic? then Crashed(sa.result.error)
                              else Diagnostic(ListAccountsFailure, Cause(sa.result.error))])
            && (sa.result.Ok? ==>
                  var create := Acls.CreateACL(sa.client, ValueString(plan.restEndpoint), ValueString(plan.clusterId),
                                               AclFilter(plan, sa.result.value), now, src, net);
                  e.sent == sa.sent + create.sent && e.client == create.client
                  && (Panicked(create.result) ==> e.state == None && e.diags == [Crashed(create.result.error)])
                  && (!Panicked(create.result) ==>
                        e.state == Some(plan.(id := Known(MakeId(plan))))
                        && e.diags == (if sa.result.value == 0 then [Diagnostic(MissingAccountPrefix + name, Text(""))] else [])
                                      + (if create.result.Err? then [Diagnostic(CreateAclFailure, Cause(create.result.error))] else [])
                        && (e.diags == [] <==> sa.result.value != 0 && create.result.Ok?)))
  {
    var name := ValueString(plan.serviceAccountName);
    var sa := ServiceAccounts.GetSaNumericId(c, name, accounts);
    match sa.result
    case Err(err) => Effect(None, [Report(ListAccountsFailure, err)], sa.client, sa.sent)
    case Ok(userId) =>
      var create := Acls.CreateACL(sa.client, ValueString(plan.restEndpoint), ValueString(plan.clusterId),
                                   AclFilter(plan, userId), now, src, net);
      if Panicked(create.result) then
        Effect(None, [Crashed(create.result.error)], create.client, sa.sent + create.sent)
      else
        var missing := if userId == 0 then [Diagnostic(MissingAccountPrefix + name, Text(""))] else [];
        var failed := if create.result.Err? then [Diagnostic(CreateAclFailure, Cause(create.result.error))] else [];
        Effect(Some(plan.(id := Known(MakeId(plan)))), missing + failed, create.client, sa.sent + create.sent)
  }

  /** A `rest_endpoint` without a scheme is resolved against a nil URL: Create
      crashes the plugin, storing nothing. */
  lemma SchemelessEndpointCrashesCreate(plan: AclModel, c: Client, now: int, src: TokenSource,
                                        accounts: nat -> Request.Outcome<ServiceAccountResponse>,
                                        net: nat -> Request.Outcome<()>)
    requires var sa := ServiceAccounts.GetSaNumericId(c, ValueString(plan.serviceAccountName), accounts);
             sa.result.Ok? && GetAccessToken(sa.client, now, src).result.Ok?
    requires Url.Parse(ValueString(plan.restEndpoint)).scheme == ""
    ensures CreateAcl(plan, c, now, src, accounts, net).state == None
    ensures CreateAcl(plan, c, now, src, accounts, net).diags == [Crashed(Request.Panic(Request.NilUrlPanic))]
  {
    var sa := ServiceAccounts.GetSaNumericId(c, ValueString(plan.serviceAccountName), accounts);
    var request := Acls.CreateRequest(ValueString(plan.restEndpoint), GetAccessToken(sa.client, now, src).result.value,
                                      ValueString(plan.clusterId), AclFilter(plan, sa.result.value));
    Url.RelativeFirstSegmentPanics(request.segments);
    Request.UnpreparedRequestPanics(request, net);
  }

  /** A refresh that issues a token without a dot crashes Create, storing nothing. */
  lemma DotlessTokenCrashesCreate(plan: AclModel, c: Client, now: int, src: TokenSource,
                                  accounts: nat -> Request.Outcome<ServiceAccountResponse>,
                                  net: nat -> Request.Outcome<()>)
    requires var sa := ServiceAccounts.GetSaNumericId(c, ValueString(plan.serviceAccountName), accounts);
             sa.result.Ok? && !Fresh(sa.client.accessToken, now)
             && IssuedToken(sa.client, src).Some? && '.' !in IssuedToken(sa.client, src).value
    ensures CreateAcl(plan, c, now, src, accounts, net).state == None
    ensures CreateAcl(plan, c, now, src, accounts, net).diags == [Crashed(Request.Panic(IndexPanic))]
  {
    var sa := ServiceAccounts.GetSaNumericId(c, ValueString(plan.serviceAccountName), accounts);
    DotlessRefreshPanics(sa.client, now, src);
  }

  /** `Read`: list the ACLs matching the state and apply the read rule. A
      listing error is reported but, as written, still reads as "no match",
      so the id becomes null. The state starts as the current state, so
      returning early, or a panic, keeps it. */
  function ReadAcl(state: AclModel, c: Client, now: int, src: TokenSource,
                   accounts: nat -> Request.Outcome<ServiceAccountResponse>, net: nat -> Request.Outcome<AclList>)
    : (e: Effect<AclModel>)
    ensures var sa := ServiceAccounts.GetSaNumericId(c, ValueString(state.serviceAccountName), accounts);
            (sa.result.Err? ==>
               e.state == state && e.client == sa.client && e.sent == sa.sent
               && e.diags == [if sa.result.error.Panic? then Crashed(sa.result.error)
                              else Diagnostic(ListAccountsFailure, Cause(sa.result.error))])
            && (sa.result.Ok? ==>
                  var list := Acls.ListSpecificACLs(sa.client, ValueString(state.restEndpoint),
                                                    ValueString(state.clusterId),
                                                    Some(AclFilter(state, sa.result.value)), now, src, net);
                  e.sent == sa.sent + list.sent && e.client == list.client
                  && (Panicked(list.result) ==>
                        e.state == state && e.diags == [Crashed(list.result.error)])
                  && (list.result.Err? && !Panicked(list.result) ==>
                        e.state == state.(id := Null)
                        && e.diags == [Diagnostic(ReadAclsFailure, Cause(list.result.error))])
                  && (list.result.Ok? && |list.result.value| > 1 ==>
                        e.state == state && e.diags == [Diagnostic(ManyAclsFailure, Text(""))])
                  && (list.result.Ok? && |list.result.value| <= 1 ==>
                        Some(e.state) == Reconcile(state, list.result.value) && e.diags == []))
  {
    var sa := ServiceAccounts.GetSaNumericId(c, ValueString(state.serviceAccountName), accounts);
    match sa.result
    case Err(err) => Effect(state, [Report(ListAccountsFailure, err)], sa.client, sa.sent)
    case Ok(userId) =>
      var list := Acls.ListSpecificACLs(sa.client, ValueString(state.restEndpoint), ValueString(state.clusterId),
                                        Some(AclFilter(state, userId)), now, src, net);
      if Panicked(list.result) then
        Effect(state, [Crashed(list.result.error)], list.client, sa.sent + list.sent)
      else
        var found := if list.result.Ok? then list.result.value else [];
        var failed := if list.result.Err? then [Diagnostic(ReadAclsFailure, Cause(list.result.error))] else [];
        match Reconcile(state, found)
        case None => Effect(state, failed + [Diagnostic(ManyAclsFailure, Text(""))], list.client, sa.sent + list.sent)
        case Some(next) => Effect(next, failed, list.client, sa.sent + list.sent)
  }

  /** `Delete` as written: the error `DeleteAcl` returns is dropped and the
      stale lookup error, always nil at that point, is tested instead, so a
      failed delete reports nothing. Only a panic, which ends the plugin and
      so keeps the ACL in state, is still reported. */
  function DeleteAclAsWritten(state: AclModel, c: Client, now: int, src: TokenSource,
                              accounts: nat -> Request.Outcome<ServiceAccountResponse>,
                              net: nat -> Request.Outcome<()>)
    : (e: Effect<()>)
    ensures var sa := ServiceAccounts.GetSaNumericId(c, ValueString(state.serviceAccountName), accounts);
            (sa.result.Err? ==>
               e.sent == sa.sent && e.client == sa.client
               && e.diags == [if sa.result.error.Panic? then Crashed(sa.result.error)
                              else Diagnostic(ListAccountsFailure, Cause(sa.result.error))])
            && (sa.result.Ok? ==>
                  var del := Acls.DeleteAcl(sa.client, ValueString(state.restEndpoint), ValueString(state.clusterId),
                                            AclFilter(state, sa.result.value), now, src, net);
                  e.sent == sa.sent + del.sent && e.client == del.client
                  && (e.diags == [] <==> !Panicked(del.result))
                  && (Panicked(del.result) ==> e.diags == [Crashed(del.result.error)]))
  {
    var sa := ServiceAccounts.GetSaNumericId(c, ValueString(state.serviceAccountName), accounts);
    match sa.result
    case Err(err) => Effect((), [Report(ListAccountsFailure, err)], sa.client, sa.sent)
    case Ok(userId) =>
      var del := Acls.DeleteAcl(sa.client, ValueString(state.restEndpoint), ValueString(state.clusterId),
                                AclFilter(state, userId), now, src, net);
      var crashed := if Panicked(del.result) then [Crashed(del.result.error)] else [];
      Effect((), crashed, del.client, sa.sent + del.sent)
  }

  /** `Delete` as evidently intended: the delete's own error is reported. */
  function DeleteAcl(state: AclModel, c: Client, now: int, src: TokenSource,
                     accounts: nat -> Request.Outcome<ServiceAccountResponse>, net: nat -> Request.Outcome<()>)
    : (e: Effect<()>)
    ensures var sa := ServiceAccounts.GetSaNumericId(c, ValueString(state.serviceAccountName), accounts);
            (sa.result.Err? ==>
               e.sent == sa.sent && e.client == sa.client
               && e.diags == [if sa.result.error.Panic? then Crashed(sa.result.error)
                              else Diagnostic(ListAccountsFailure, Cause(sa.result.error))])
            && (sa.result.Ok? ==>
                  var del := Acls.DeleteAcl(sa.client, ValueString(state.restEndpoint), ValueString(state.clusterId),
                                            AclFilter(state, sa.result.value), now, src, net);
                  e.sent == sa.sent + del.sent && e.client == del.client
                  && (e.diags == [] <==> del.result.Ok?)
                  && (Panicked(del.result) ==> e.diags == [Crashed(del.result.error)])
                  && (del.result.Err? && !Panicked(del.result) ==>
                        e.diags == [Diagnostic(DeleteAclFailure, Cause(del.result.error))]))
  {
    var sa := ServiceAccounts.GetSaNumericId(c, ValueString(state.serviceAccountName), accounts);
    match sa.result
    case Err(err) => Effect((), [Report(ListAccountsFailure, err)], sa.client, sa.sent)
    case Ok(userId) =>
      var del := Acls.DeleteAcl(sa.client, ValueString(state.restEndpoint), ValueString(state.clusterId),
                                AclFilter(state, userId), now, src, net);
      var failed := if del.result.Err? then [Report(DeleteAclFailure, del.result.error)] else [];
      Effect((), failed, del.client, sa.sent + del.sent)
  }

  /** The two Delete versions send the same requests; they differ exactly
      when the ACL delete fails, which only the corrected one reports. */
  lemma DeleteFailureHiddenAsWritten(state: AclModel, c: Client, now: int, src: TokenSource,
                                     accounts: nat -> Request.Outcome<ServiceAccountResponse>,
                                     net: nat -> Request.Outcome<()>)
    ensures DeleteAclAsWritten(state, c, now, src, accounts, net).sent == DeleteAcl(state, c, now, src, accounts, net).sent
    ensures DeleteAclAsWritten(state, c, now, src, accounts, net).diags != DeleteAcl(state, c, now, src, accounts, net).diags
        <==> DeleteAclAsWritten(state, c, now, src, accounts, net).diags == [] && DeleteAcl(state, c, now, src, accounts, net).diags != []
  {
  }
}

=== FILE: resource_api_key.dfy ===
/** internal/resource_api_key.go: the `confluentacl_api_key` resource. The
    control plane refuses an empty description, so an empty one is sent as
    "--" and "--" is read back as the description the state already had. */
module ApiKeyResource {
  import opened Wrappers
  import opened Text
  import opened Wire
  import Request
  import opened Client
  import opened Framework
  import ServiceAccounts
  import ApiKeys

  datatype ApiKeyModel = ApiKeyModel(
    id: TfString,
    serviceAccountName: TfString,
    environmentId: TfString,
    resourceId: TfString,
    description: TfString,
    apiKey: TfString,
    apiSecret: TfString)

  const EmptyDescription := "--"

  const ListAccountsFailure := "Failed to list service accounts"
  const CreateKeyFailure := "Failed to create Api Key"
  const ReadKeyFailure := "Failed to read Api Key"
  const UpdateKeyFailure := "Failed to update api key"
  const DeleteKeyFailure := "Failed to delete api key"

  // ---------------------------------------------------------------------
  // Description normalisation

  /** The description Update sends: never empty, and unchanged unless empty. */
  function NormalizeOutgoing(description: string): (sent: string)
    ensures sent != ""
    ensures description != "" ==> sent == description
  {
    if description == "" then EmptyDescription else description
  }

  /** The description Read keeps: the server's, except that a "--" stands for
      the state's own "" (or "--"). */
  function ReconcileDescription(current: string, read: string): (kept: string)
    ensures kept == read || kept == current
    ensures kept != read <==> read == EmptyDescription && current == ""
  {
    if read == EmptyDescription && (current == EmptyDescription || current == "") then current else read
  }

  /** Whatever description is configured, sending it and reading it back
      gives the same description. */
  lemma DescriptionRoundTrip(description: string)
    ensures ReconcileDescription(description, NormalizeOutgoing(description)) == description
  {
  }

  // ---------------------------------------------------------------------
  // Operations

  /** `Create`: resolve the service account, create the key and store the plan
      with the key's numeric id in decimal, its key and its secret. Nothing
      is stored when either call fails. */
  function CreateKey(plan: ApiKeyModel, c: Client,
                     accounts: nat -> Request.Outcome<ServiceAccountResponse>,
                     net: nat -> Request.Outcome<ApiKeyInternal>)
    : (e: Effect<Option<ApiKeyModel>>)
    ensures var sa := ServiceAccounts.GetSaNumericId(c, ValueString(plan.serviceAccountName), accounts);
            (sa.result.Err? ==>
               e == Effect(None, [Diagnostic(ListAccountsFailure, Cause(sa.result.error))], sa.client, sa.sent))
            && (sa.result.Ok? ==>
                  var create := ApiKeys.CreateApiKey(sa.client, sa.result.value, ValueString(plan.environmentId),
                                                     ValueString(plan.resourceId), ValueString(plan.description), net);
                  e.sent == sa.sent + create.sent && e.client == create.client
                  && (e.state.Some? <==> create.result.Ok?)
                  && (e.diags == [] <==> create.result.Ok?)
                  && (create.result.Err? ==> e.diags == [Diagnostic(CreateKeyFailure, Cause(create.result.error))])
                  && (create.result.Ok? ==>
                        e.state.value.id == Known(IntToDecimal(create.result.value.id))
                        && DecimalValue(e.state.value.id.value) == Some(create.result.value.id)
                        && e.state.value.apiKey == Known(create.result.value.key)
                        && e.state.value.apiSecret == Known(create.result.value.secret)
                        && e.state.value.(id := plan.id, apiKey := plan.apiKey, apiSecret := plan.apiSecret) == plan))
  {
    var sa := ServiceAccounts.GetSaNumericId(c, ValueString(plan.serviceAccountName), accounts);
    match sa.result
    case Err(err) => Effect(None, [Diagnostic(ListAccountsFailure, Cause(err))], sa.client, sa.sent)
    case Ok(userId) =>
      var create := ApiKeys.CreateApiKey(sa.client, userId, ValueString(plan.environmentId),
                                         ValueString(plan.resourceId), ValueString(plan.description), net);
      var sent := sa.sent + create.sent;
      match create.result
      case Err(err) => Effect(None, [Diagnostic(CreateKeyFailure, Cause(err))], create.client, sent)
      case Ok(key) =>
        DecimalRoundTrip(key.id);
        var stored := plan.(id := Known(IntToDecimal(key.id)), apiKey := Known(key.key), apiSecret := Known(key.secret));
        Effect(Some(stored), [], create.client, sent)
  }

  /** `Read` as written: the reconciled model is only ever a local copy, so
      the state is never changed, not even when the key is gone. */
  function ReadKeyAsWritten(state: ApiKeyModel, c: Client, net: nat -> Request.Outcome<ApiKeyIamV2>)
    : (e: Effect<ApiKeyModel>)
    ensures var read := ApiKeys.ReadApiKey(c, ValueString(state.apiKey), net);
            e.state == state && e.sent == read.sent && e.client == read.client
            && (read.result.Err? ==> e.diags == [Diagnostic(ReadKeyFailure, Cause(read.result.error))])
            && (read.result.Ok? ==> e.diags == [])
  {
    var read := ApiKeys.ReadApiKey(c, ValueString(state.apiKey), net);
    match read.result
    case Err(err) => Effect(state, [Diagnostic(ReadKeyFailure, Cause(err))], read.client, read.sent)
    case Ok(_) => Effect(state, [], read.client, read.sent)
  }

  /** `Read` as evidently intended: a missing key nulls the id, a found key
      refreshes the description (through the "--" rule) and the resource id. */
  function ReadKey(state: ApiKeyModel, c: Client, net: nat -> Request.Outcome<ApiKeyIamV2>)
    : (e: Effect<ApiKeyModel>)
    ensures var read := ApiKeys.ReadApiKey(c, ValueString(state.apiKey), net);
            e.sent == read.sent && e.client == read.client
            && (read.result.Err? ==>
                  e.state == state && e.diags == [Diagnostic(ReadKeyFailure, Cause(read.result.error))])
            && (read.result.Ok? ==> e.diags == [])
            && (read.result == Ok(None) ==> e.state == state.(id := Null))
            && (read.result.Ok? && read.result.value.Some? ==>
                  var key := read.result.value.value;
                  e.state.resourceId == Known(key.spec.resource.id)
                  && e.state.description
                     == Known(ReconcileDescription(ValueString(state.description), key.spec.description))
                  && e.state.(description := state.description, resourceId := state.resourceId) == state)
  {
    var read := ApiKeys.ReadApiKey(c, ValueString(state.apiKey), net);
    match read.result
    case Err(err) => Effect(state, [Diagnostic(ReadKeyFailure, Cause(err))], read.client, read.sent)
    case Ok(None) => Effect(state.(id := Null), [], read.client, read.sent)
    case Ok(Some(key)) =>
      var description := ReconcileDescription(ValueString(state.description), key.spec.description);
      Effect(state.(description := Known(description), resourceId := Known(key.spec.resource.id)),
             [], read.client, read.sent)
  }

  /** A key deleted outside Terraform stays in state as written, and is
      dropped from it (null id) by the corrected read. */
  lemma DeletedKeyKeptAsWritten(state: ApiKeyModel, c: Client, net: nat -> Request.Outcome<ApiKeyIamV2>)
    requires state.id.Known?
    requires ApiKeys.ReadApiKey(c, ValueString(state.apiKey), net).result == Ok(None)
    ensures ReadKeyAsWritten(state, c, net).state.id == state.id
    ensures ReadKey(state, c, net).state.id == Null
  {
  }

  /** An empty description survives the "--" detour: after the server echoes
      what Update sent, the corrected read leaves the description as configured. */
  lemma ReadRestoresUpdatedDescription(state: ApiKeyModel, c: Client, net: nat -> Request.Outcome<ApiKeyIamV2>)
    requires state.description.Known?
    requires var read := ApiKeys.ReadApiKey(c, ValueString(state.apiKey), net);
             read.result.Ok? && read.result.value.Some?
             && read.result.value.value.spec.description == NormalizeOutgoing(state.description.value)
    ensures ReadKey(state, c, net).state.description == state.description
  {
    DescriptionRoundTrip(state.description.value);
  }

  /** `Update`: send the normalised description; store the plan only on success. */
  function UpdateKey(plan: ApiKeyModel, c: Client, net: nat -> Request.Outcome<()>)
    : (e: Effect<Option<ApiKeyModel>>)
    ensures var update := ApiKeys.UpdateApiKey(c, ValueString(plan.id), NormalizeOutgoing(ValueString(plan.description)),
                                               ValueString(plan.environmentId), ValueString(plan.resourceId), net);
            e.sent == update.sent && e.client == update.client
            && (e.state == Some(plan) <==> update.result.Ok?)
            && (e.state.None? <==> update.result.Err?)
            && (update.result.Err? ==> e.diags == [Diagnostic(UpdateKeyFailure, Cause(update.result.error))])
            && (update.result.Ok? ==> e.diags == [])
    ensures e.sent[0].body.Some? && e.sent[0].body.value.UpdateApiKeyBody? && e.sent[0].body.value.description != ""
  {
    var update := ApiKeys.UpdateApiKey(c, ValueString(plan.id), NormalizeOutgoing(ValueString(plan.description)),
                                       ValueString(plan.environmentId), ValueString(plan.resourceId), net);
    match update.result
    case Err(err) => Effect(None, [Diagnostic(UpdateKeyFailure, Cause(err))], update.client, update.sent)
    case Ok(_) => Effect(Some(plan), [], update.client, update.sent)
  }

  /** `Delete`: a key that is already gone (403) deletes without a diagnostic. */
  function DeleteKey(state: ApiKeyModel, c: Client, net: nat -> Request.Outcome<()>)
    : (e: Effect<()>)
    ensures var del := ApiKeys.DeleteApiKey(c, ValueString(state.id), ValueString(state.environmentId),
                                            ValueString(state.resourceId), net);
            e.sent == del.sent && e.client == del.client
            && (e.diags == [] <==> del.result.Ok?)
            && (del.result.Err? ==> e.diags == [Diagnostic(DeleteKeyFailure, Cause(del.result.error))])
  {
    var del := ApiKeys.DeleteApiKey(c, ValueString(state.id), ValueString(state.environmentId),
                                    ValueString(state.resourceId), net);
    match del.result
    case Err(err) => Effect((), [Diagnostic(DeleteKeyFailure, Cause(err))], del.client, del.sent)
    case Ok(_) => Effect((), [], del.client, del.sent)
  }
}

=== FILE: service_accounts.dfy ===
/** internal/client/service_accounts.go: the service-account listing, cached
    under one key of the generic cache and never invalidated, and the lookup of
    a service account's numeric id by name. */
module ServiceAccounts {
  import opened Wrappers
  import opened Wire
  import Request
  import opened Client

  const CacheKey := "serviceAccounts"
  const ServiceAccountsEndpoint := "service_accounts"
  const ListFailure := "listing service accounts failed"

  /** The listing request: a GET of `service_accounts`, Basic auth. */
  function ListRequest(c: Client): (r: Request.Request)
    ensures r.segments == [BaseApiUrl, ServiceAccountsEndpoint]
    ensures r.httpMethod == Request.Get && r.body == None
    ensures r.authHeader == RequestBuilder(c).authHeader
  {
    Request.SetMethod(Request.Endpoint(RequestBuilder(c), [ServiceAccountsEndpoint]), Request.Get)
  }

  /** `ListServiceAccounts`: a cache hit makes no request; a miss fetches, and
      only a decoded 200 reply is stored and returned. */
  function ListServiceAccounts(c: Client, net: nat -> Request.Outcome<ServiceAccountResponse>)
    : (s: Step<seq<ServiceAccount>>)
    ensures CacheKey in c.cache ==> s == Step(Ok(c.cache[CacheKey]), c, [])
    ensures CacheKey !in c.cache ==> s.sent == [ListRequest(c)]
    ensures s.result.Err? ==> s.client == c
    ensures CacheKey !in c.cache && s.result.Ok? ==>
              s.client == c.(cache := c.cache[CacheKey := s.result.value])
    ensures CacheKey !in c.cache ==>
              var run := Request.ExecuteAndRetryOn429(ListRequest(c), net);
              (s.result.Ok? <==> run.result.Ok? && run.result.value.status == 200 && run.result.value.payload.Some?)
              && (s.result.Ok? ==> s.result.value == run.result.value.payload.value.users)
              && (run.result.Err? ==> s.result == Err(run.result.error))
              && (run.result.Ok? && run.result.value.status == 200 && run.result.value.payload.None? ==>
                    s.result == Err(Request.Undecodable))
              && (run.result.Ok? && run.result.value.status != 200 ==>
                    s.result == Err(Request.UnexpectedStatus(ListFailure, run.result.value.status)))
  {
    if CacheKey in c.cache then Step(Ok(c.cache[CacheKey]), c, [])
    else
      var request := ListRequest(c);
      var run := Request.ExecuteAndRetryOn429(request, net);
      match run.result
      case Err(e) => Step(Err(e), c, [request])
      case Ok(response) =>
        if response.status != 200 then
          Step(Err(Request.UnexpectedStatus(ListFailure, response.status)), c, [request])
        else
          match response.payload
          case None => Step(Err(Request.Undecodable), c, [request])
          case Some(body) =>
            Step(Ok(body.users), c.(cache := c.cache[CacheKey := body.users]), [request])
  }

  /** The cache is never invalidated: once a listing succeeded, every later call
      returns the same list without a request, whatever the network would say. */
  lemma ListingIsCachedForever(c: Client, net: nat -> Request.Outcome<ServiceAccountResponse>,
                               later: nat -> Request.Outcome<ServiceAccountResponse>)
    requires ListServiceAccounts(c, net).result.Ok?
    ensures var s := ListServiceAccounts(c, net);
            ListServiceAccounts(s.client, later) == Step(s.result, s.client, [])
  {
  }

  /** Entries already in the cache are kept unchanged by a listing. */
  lemma ListingOnlyAddsToCache(c: Client, net: nat -> Request.Outcome<ServiceAccountResponse>)
    ensures var s := ListServiceAccounts(c, net);
            forall k | k in c.cache :: k in s.client.cache && s.client.cache[k] == c.cache[k]
  {
  }

  // ---------------------------------------------------------------------
  // Lookup by name

  /** `i` is the last position holding an account called `name`. */
  predicate IsLastMatch(accounts: seq<ServiceAccount>, name: string, i: int)
  {
    0 <= i < |accounts| && accounts[i].serviceName == name
    && forall j | i < j < |accounts| :: accounts[j].serviceName != name
  }

  /** The loop of `GetSaNumericId`: walk the accounts in order and remember the
      id of each one called `name`; `found` is the id remembered so far. */
  function ScanUserId(accounts: seq<ServiceAccount>, name: string, found: int): (id: int)
    ensures (forall i | 0 <= i < |accounts| :: accounts[i].serviceName != name) ==> id == found
    ensures forall i | IsLastMatch(accounts, name, i) :: id == accounts[i].userId
    decreases |accounts|
  {
    if |accounts| == 0 then found
    else
      var next := if accounts[0].serviceName == name then accounts[0].userId else found;
      var id := ScanUserId(accounts[1..], name, next);
      assert forall i | IsLastMatch(accounts, name, i) && i > 0 :: IsLastMatch(accounts[1..], name, i - 1);
      id
  }

  /** The id of the last account called `name`, 0 when there is none. */
  function LastMatchingUserId(accounts: seq<ServiceAccount>, name: string): (id: int)
    ensures (forall i | 0 <= i < |accounts| :: accounts[i].serviceName != name) ==> id == 0
    ensures forall i | IsLastMatch(accounts, name, i) :: id == accounts[i].userId
  {
    ScanUserId(accounts, name, 0)
  }

  /** `GetSaNumericId`: a listing error is passed on; otherwise the id of the last
      account with that name, or 0. */
  function GetSaNumericId(c: Client, name: string, net: nat -> Request.Outcome<ServiceAccountResponse>)
    : (s: Step<int>)
    ensures s.client == ListServiceAccounts(c, net).client && s.sent == ListServiceAccounts(c, net).sent
    ensures s.result.Err? <==> ListServiceAccounts(c, net).result.Err?
    ensures s.result.Err? ==> s.result.error == ListServiceAccounts(c, net).result.error
    ensures s.result.Ok? ==>
              var accounts := ListServiceAccounts(c, net).result.value;
              ((forall i | 0 <= i < |accounts| :: accounts[i].serviceName != name) ==> s.result.value == 0)
              && (forall i | IsLastMatch(accounts, name, i) :: s.result.value == accounts[i].userId)
  {
    var listed := ListServiceAccounts(c, net);
    match listed.result
    case Err(e) => Step(Err(e), listed.client, listed.sent)
    case Ok(accounts) => Step(Ok(LastMatchingUserId(accounts, name)), listed.client, listed.sent)
  }
}

=== FILE: text.dfy ===
/** Go strings as the model sees them: the UTF-8 bytes behind a string,
    decimal formatting of integers (`strconv.Itoa`, `%d`), and the
    `strings.Split` / `strings.Join` pair used for tokens and resource IDs. */
module Text {
  import opened Wrappers

  newtype byte = x: int | 0 <= x < 256

  /** UTF-8 encoding of one Unicode scalar value (section 3 of RFC 3629). */
  function EncodeScalar(c: char): (b: seq<byte>)
    ensures 1 <= |b| <= 4
    ensures |b| == 1 <==> c as int < 0x80
    ensures |b| == 1 ==> b[0] as int == c as int
  {
    var n := c as int;
    if n < 0x80 then [n as byte]
    else if n < 0x800 then [(0xC0 + n / 64) as byte, (0x80 + n % 64) as byte]
    else if n < 0x1_0000 then
      [(0xE0 + n / 4096) as byte, (0x80 + n / 64 % 64) as byte, (0x80 + n % 64) as byte]
    else
      [(0xF0 + n / 262144) as byte, (0x80 + n / 4096 % 64) as byte,
       (0x80 + n / 64 % 64) as byte, (0x80 + n % 64) as byte]
  }

  /** The bytes of a Go string holding `s`. */
  function Utf8(s: string): (b: seq<byte>)
    ensures |s| <= |b| <= 4 * |s|
  {
    if |s| == 0 then [] else EncodeScalar(s[0]) + Utf8(s[1..])
  }

  lemma {:induction false} Utf8Append(s: string, t: string)
    ensures Utf8(s + t) == Utf8(s) + Utf8(t)
    decreases |s|
  {
    if |s| == 0 {
      assert s + t == t;
    } else {
      assert (s + t)[1..] == s[1..] + t;
      Utf8Append(s[1..], t);
    }
  }

  // ---------------------------------------------------------------------
  // Decimal integers

  predicate IsDecimalDigit(c: char) {
    48 <= c as int <= 57
  }

  function DigitChar(d: int): (c: char)
    requires 0 <= d < 10
    ensures IsDecimalDigit(c) && c as int - 48 == d
  {
    (48 + d) as char
  }

  /** Decimal digits of a natural number, without leading zeros. */
  function NatToDecimal(n: nat): (s: string)
    ensures |s| >= 1
    ensures forall i | 0 <= i < |s| :: IsDecimalDigit(s[i])
    ensures |s| > 1 ==> s[0] != '0'
  {
    if n < 10 then [DigitChar(n)] else NatToDecimal(n / 10) + [DigitChar(n % 10)]
  }

  /** Go's `strconv.Itoa(i)`, which is also what `fmt.Sprintf("%d", i)` prints. */
  function IntToDecimal(i: int): (s: string)
  {
    if i < 0 then "-" + NatToDecimal(-i) else NatToDecimal(i)
  }

  /** Value of a non-empty run of decimal digits. */
  function DigitsValue(s: string): nat
    requires |s| >= 1
    requires forall i | 0 <= i < |s| :: IsDecimalDigit(s[i])
  {
    assert IsDecimalDigit(s[|s| - 1]);
    var last := s[|s| - 1] as int - 48;
    if |s| == 1 then last else DigitsValue(s[..|s| - 1]) * 10 + last
  }

  /** Reads back what `IntToDecimal` writes: an optional minus sign and digits. */
  function DecimalValue(s: string): Option<int>
  {
    if |s| >= 2 && s[0] == '-' && forall i | 1 <= i < |s| :: IsDecimalDigit(s[i]) then
      var magnitude: int := DigitsValue(s[1..]);
      Some(-magnitude)
    else if |s| >= 1 && forall i | 0 <= i < |s| :: IsDecimalDigit(s[i]) then
      Some(DigitsValue(s))
    else
      None
  }

  lemma {:induction false} DigitsOfNat(n: nat)
    ensures DigitsValue(NatToDecimal(n)) == n
  {
    if n >= 10 {
      var s := NatToDecimal(n);
      assert s[..|s| - 1] == NatToDecimal(n / 10);
      DigitsOfNat(n / 10);
    }
  }

  /** Formatting an integer and reading it back gives the integer again. */
  lemma DecimalRoundTrip(i: int)
    ensures DecimalValue(IntToDecimal(i)) == Some(i)
  {
    if i < 0 {
      var s := IntToDecimal(i);
      assert s[1..] == NatToDecimal(-i);
      DigitsOfNat(-i);
    } else {
      DigitsOfNat(i);
    }
  }

  /** Distinct integers print as distinct strings. */
  lemma DecimalInjective(i: int, j: int)
    requires IntToDecimal(i) == IntToDecimal(j)
    ensures i == j
  {
    DecimalRoundTrip(i);
    DecimalRoundTrip(j);
  }

  // ---------------------------------------------------------------------
  // strings.Split with a one-character separator, and strings.Join

  /** Go's `strings.Split(s, string(sep))`: the pieces between occurrences of
      `sep`, one more piece than there are separators. */
  function Split(s: string, sep: char): (parts: seq<string>)
    ensures |parts| >= 1
    ensures forall i | 0 <= i < |parts| :: sep !in parts[i]
    decreases |s|
  {
    if |s| == 0 then [""]
    else
      var rest := Split(s[1..], sep);
      if s[0] == sep then [""] + rest
      else [[s[0]] + rest[0]] + rest[1..]
  }

  /** Go's `strings.Join(parts, sep)`. */
  function Join(parts: seq<string>, sep: string): string
  {
    if |parts| == 0 then ""
    else if |parts| == 1 then parts[0]
    else parts[0] + sep + Join(parts[1..], sep)
  }

  /** A character in neither the pieces nor the separator is not in their join. */
  lemma {:induction false} NotInJoin(parts: seq<string>, sep: char, c: char)
    requires c != sep
    requires forall i | 0 <= i < |parts| :: c !in parts[i]
    ensures c !in Join(parts, [sep])
    decreases |parts|
  {
    if |parts| > 1 {
      NotInJoin(parts[1..], sep, c);
      assert parts[0] + [sep] + Join(parts[1..], [sep]) == Join(parts, [sep]);
    }
  }

  /** Splitting `a + t` where `a` holds no separator glues `a` to the first piece of `t`. */
  lemma {:induction false} SplitAfterPlain(a: string, t: string, sep: char)
    requires sep !in a
    ensures Split(a + t, sep) == [a + Split(t, sep)[0]] + Split(t, sep)[1..]
    decreases |a|
  {
    if |a| > 0 {
      assert (a + t)[0] == a[0];
      assert (a + t)[1..] == a[1..] + t;
      SplitAfterPlain(a[1..], t, sep);
      assert [a[0]] + (a[1..] + Split(t, sep)[0]) == a + Split(t, sep)[0];
    } else {
      assert a + t == t;
      assert a + Split(t, sep)[0] == Split(t, sep)[0];
    }
  }

  /** Splitting `sep + t` gives an empty piece before the pieces of `t`. */
  lemma SplitAtLeadingSeparator(t: string, sep: char)
    ensures Split([sep] + t, sep) == [""] + Split(t, sep)
  {
    assert ([sep] + t)[1..] == t;
  }

  /** In `a.b.c`, where `a` and `b` hold no separator, the second piece is `b`. */
  lemma SecondPiece(a: string, b: string, c: string, sep: char)
    requires sep !in a && sep !in b
    ensures var parts := Split(a + [sep] + b + [sep] + c, sep); |parts| >= 2 && parts[1] == b
  {
    var tail := b + [sep] + c;
    assert a + [sep] + b + [sep] + c == a + ([sep] + tail);
    SplitAfterPlain(a, [sep] + tail, sep);
    SplitAtLeadingSeparator(tail, sep);
    assert tail == b + ([sep] + c);
    SplitAfterPlain(b, [sep] + c, sep);
    SplitAtLeadingSeparator(c, sep);
  }

  /** Joining pieces that hold no separator and splitting again gives the pieces back. */
  lemma {:induction false} SplitJoin(parts: seq<string>, sep: char)
    requires |parts| >= 1
    requires forall i | 0 <= i < |parts| :: sep !in parts[i]
    ensures Split(Join(parts, [sep]), sep) == parts
    decreases |parts|
  {
    if |parts| == 1 {
      SplitAfterPlain(parts[0], "", sep);
      assert parts[0] + "" == parts[0];
    } else {
      var tail := Join(parts[1..], [sep]);
      SplitJoin(parts[1..], sep);
      assert Split([sep] + tail, sep) == [""] + Split(tail, sep);
      assert parts[0] + [sep] + tail == parts[0] + ([sep] + tail);
      SplitAfterPlain(parts[0], [sep] + tail, sep);
      assert parts[0] + "" == parts[0];
    }
  }

  /** Splitting and joining again gives the original string back. */
  lemma {:induction false} JoinSplit(s: string, sep: char)
    ensures Join(Split(s, sep), [sep]) == s
    decreases |s|
  {
    if |s| > 0 {
      var rest := Split(s[1..], sep);
      JoinSplit(s[1..], sep);
      if s[0] == sep {
        assert s == [sep] + s[1..];
      } else if |rest| == 1 {
        assert s == [s[0]] + s[1..];
      } else {
        assert rest == [rest[0]] + rest[1..];
        assert s == [s[0]] + s[1..];
      }
    }
  }
}

=== FILE: url.dfy ===
/** The part of Go's `net/url` that the request builder leans on: parsing a
    URL string into scheme, host and path, resolving one URL as a reference
    against another (section 5.2 of RFC 3986), and printing the result. The
    builder folds this resolution over its list of segments, starting from a
    nil URL. Queries, fragments, user info, dot segments, escaping and parse
    errors are outside this model. */
module Url {
  import opened Wrappers

  datatype Url = Url(scheme: string, host: string, path: string)

  predicate IsLetter(c: char) {
    ('a' <= c <= 'z') || ('A' <= c <= 'Z')
  }

  /** Characters allowed in a scheme after its first letter. */
  predicate IsSchemeTail(c: char) {
    ('0' <= c <= '9') || c == '+' || c == '-' || c == '.'
  }

  /** Go's `getScheme`, scanning from index `i`: the index of the `:` that ends
      a scheme, or 0 when `s` has no scheme. */
  function SchemeEnd(s: string, i: nat): (k: nat)
    requires i <= |s|
    ensures k == 0 || (i <= k < |s| && s[k] == ':')
    decreases |s| - i
  {
    if i == |s| then 0
    else if IsLetter(s[i]) then SchemeEnd(s, i + 1)
    else if IsSchemeTail(s[i]) then (if i == 0 then 0 else SchemeEnd(s, i + 1))
    else if s[i] == ':' then i
    else 0
  }

  /** Index of the first `c` in `s`, or `|s|` when there is none. */
  function IndexOf(s: string, c: char): (k: nat)
    ensures k <= |s|
    ensures k < |s| ==> s[k] == c
    ensures forall j | 0 <= j < k :: s[j] != c
  {
    if |s| == 0 then 0 else if s[0] == c then 0 else 1 + IndexOf(s[1..], c)
  }

  predicate StartsWith(s: string, prefix: string) {
    |prefix| <= |s| && s[..|prefix|] == prefix
  }

  /** `url.Parse`: an optional scheme, then an authority after `//`, then the path. */
  function Parse(s: string): (u: Url)
    ensures u.scheme != "" <==> SchemeEnd(s, 0) > 0
  {
    var k := SchemeEnd(s, 0);
    if k > 0 then ParseRest(s[..k], s[k + 1..]) else ParseRest("", s)
  }

  /** What follows the scheme: an authority after `//` (a scheme-less `///`
      is a path), then the path. */
  function ParseRest(scheme: string, rest: string): (u: Url)
    ensures u.scheme == scheme
  {
    if StartsWith(rest, "//") && (scheme != "" || !StartsWith(rest, "///")) then
      var authority := rest[2..];
      var j := IndexOf(authority, '/');
      Url(scheme, authority[..j], authority[j..])
    else
      Url(scheme, "", rest)
  }

  /** Index of the last `/` in `s`, or -1. */
  function LastSlash(s: string): (k: int)
    ensures -1 <= k < |s|
    ensures k >= 0 ==> s[k] == '/'
    ensures forall j | k < j < |s| :: s[j] != '/'
  {
    if |s| == 0 then -1
    else if s[|s| - 1] == '/' then |s| - 1
    else LastSlash(s[..|s| - 1])
  }

  /** Go's `resolvePath` for paths without `.` or `..` segments: merge a relative
      reference with the base directory, and make the result start with `/`. */
  function ResolvePath(base: string, ref: string): (p: string)
    ensures p == "" || p[0] == '/'
  {
    var full :=
      if ref == "" then base
      else if ref[0] != '/' then base[..LastSlash(base) + 1] + ref
      else ref;
    if full == "" then "" else if full[0] == '/' then full else "/" + full
  }

  /** `base.ResolveReference(ref)`, where `base` None is a nil `*url.URL`: that
      only works for a reference carrying its own scheme, and dereferences nil
      (None here) otherwise. */
  function ResolveReference(base: Option<Url>, ref: Url): (r: Option<Url>)
    ensures r.None? <==> base.None? && ref.scheme == ""
    ensures ref.scheme != "" ==> r == Some(Url(ref.scheme, ref.host, ResolvePath(ref.path, "")))
  {
    if ref.scheme != "" then Some(Url(ref.scheme, ref.host, ResolvePath(ref.path, "")))
    else if base.None? then None
    else if ref.host != "" then Some(Url(base.value.scheme, ref.host, ResolvePath(ref.path, "")))
    else Some(Url(base.value.scheme, base.value.host, ResolvePath(base.value.path, ref.path)))
  }

  /** `(*url.URL).String()` for a URL with a normalised path. */
  function Render(u: Url): string
  {
    (if u.scheme != "" then u.scheme + ":" else "")
    + (if u.host != "" then "//" + u.host else "")
    + u.path
  }

  /** The state of the resolution loop: no URL yet (Go's nil), a URL, or the
      nil dereference that ends the process. */
  datatype Resolution = Unset | Resolved(url: Url) | Panicked

  function ResolveStep(acc: Resolution, segment: string): Resolution
  {
    match acc
    case Panicked => Panicked
    case Unset =>
      (match ResolveReference(None, Parse(segment))
       case None => Panicked
       case Some(u) => Resolved(u))
    case Resolved(b) => Resolved(ResolveReference(Some(b), Parse(segment)).value)
  }

  /** The left fold of reference resolution over the segments, in order. */
  function Fold(acc: Resolution, segments: seq<string>): Resolution
    decreases |segments|
  {
    if |segments| == 0 then acc else Fold(ResolveStep(acc, segments[0]), segments[1..])
  }

  /** `resolveUrlEndpoints`: the printed URL, or None when the fold (or the final
      `String()` on a nil URL) dereferences nil. */
  function ResolveSegments(segments: seq<string>): Option<string>
  {
    match Fold(Unset, segments)
    case Resolved(u) => Some(Render(u))
    case _ => None
  }

  // ---------------------------------------------------------------------
  // Properties of the fold

  lemma {:induction false} FoldAppend(acc: Resolution, a: seq<string>, b: seq<string>)
    ensures Fold(acc, a + b) == Fold(Fold(acc, a), b)
    decreases |a|
  {
    if |a| > 0 {
      assert (a + b)[0] == a[0];
      assert (a + b)[1..] == a[1..] + b;
      FoldAppend(ResolveStep(acc, a[0]), a[1..], b);
    } else {
      assert a + b == b;
    }
  }

  lemma {:induction false} PanicIsFinal(segments: seq<string>)
    ensures Fold(Panicked, segments) == Panicked
    decreases |segments|
  {
    if |segments| > 0 {
      PanicIsFinal(segments[1..]);
    }
  }

  /** A first segment without a scheme is resolved against the nil URL, so the
      whole resolution panics whatever follows. */
  lemma RelativeFirstSegmentPanics(segments: seq<string>)
    requires |segments| >= 1 && Parse(segments[0]).scheme == ""
    ensures ResolveSegments(segments) == None
  {
    PanicIsFinal(segments[1..]);
  }

  lemma {:induction false} ResolvedStaysResolved(u: Url, segments: seq<string>)
    ensures Fold(Resolved(u), segments).Resolved?
    decreases |segments|
  {
    if |segments| > 0 {
      ResolvedStaysResolved(ResolveReference(Some(u), Parse(segments[0])).value, segments[1..]);
    }
  }

  /** A first segment with a scheme makes the whole resolution succeed. */
  lemma AbsoluteFirstSegmentResolves(segments: seq<string>)
    requires |segments| >= 1 && Parse(segments[0]).scheme != ""
    ensures ResolveSegments(segments).Some?
  {
    ResolvedStaysResolved(ResolveReference(None, Parse(segments[0])).value, segments[1..]);
  }

  /** A segment with its own scheme overrides everything before it: what comes
      earlier only matters through whether it already panicked. */
  lemma AbsoluteSegmentOverrides(prefix: seq<string>, s: string, rest: seq<string>)
    requires Parse(s).scheme != ""
    ensures Fold(Unset, prefix + [s] + rest)
         == if Fold(Unset, prefix).Panicked? then Panicked else Fold(Unset, [s] + rest)
  {
    FoldAppend(Unset, prefix, [s] + rest);
    assert prefix + [s] + rest == prefix + ([s] + rest);
    var acc := Fold(Unset, prefix);
    if acc.Panicked? {
      PanicIsFinal([s] + rest);
    } else {
      assert ResolveStep(acc, s) == ResolveStep(Unset, s);
      assert Fold(acc, [s] + rest) == Fold(ResolveStep(acc, s), rest);
    }
  }

  // ---------------------------------------------------------------------
  // A base URL ending in `/` followed by a relative path

  predicate AllLetters(s: string) {
    forall i | 0 <= i < |s| :: IsLetter(s[i])
  }

  lemma {:induction false} SchemeEndOfLetters(s: string, n: nat, i: nat)
    requires 1 <= n < |s| && i <= n
    requires forall j | 0 <= j < n :: IsLetter(s[j])
    requires s[n] == ':'
    ensures SchemeEnd(s, i) == n
    decreases n - i
  {
    if i < n {
      SchemeEndOfLetters(s, n, i + 1);
    }
  }

  lemma {:induction false} SchemeEndWithoutColon(s: string, i: nat)
    requires i <= |s| && ':' !in s
    ensures SchemeEnd(s, i) == 0
    decreases |s| - i
  {
    if i < |s| {
      SchemeEndWithoutColon(s, i + 1);
    }
  }

  /** A path without a colon, not starting with `/`, parses to a bare relative path. */
  lemma ParseRelativePath(ref: string)
    requires |ref| >= 1 && ref[0] != '/' && ':' !in ref
    ensures Parse(ref) == Url("", "", ref)
  {
    SchemeEndWithoutColon(ref, 0);
  }

  /** The scheme of `scheme://…` ends at the colon after its letters. */
  lemma SchemeOfBase(scheme: string, tail: string)
    requires |scheme| >= 1 && AllLetters(scheme)
    ensures SchemeEnd(scheme + ":" + tail, 0) == |scheme|
  {
    var s := scheme + ":" + tail;
    assert s[|scheme|] == ':';
    assert forall j | 0 <= j < |scheme| :: s[j] == scheme[j];
    SchemeEndOfLetters(s, |scheme|, 0);
  }

  /** The authority `host/path` splits at the first `/`. */
  lemma SplitAuthority(host: string, path: string)
    requires '/' !in host && |path| >= 1 && path[0] == '/'
    ensures IndexOf(host + path, '/') == |host|
  {
    var authority := host + path;
    assert authority[|host|] == '/';
    assert forall j | 0 <= j < |host| :: authority[j] == host[j];
  }

  /** After the scheme, `//host/path` gives the host and the path. */
  lemma ParseAuthority(scheme: string, host: string, path: string)
    requires scheme != "" && '/' !in host && |path| >= 1 && path[0] == '/'
    ensures ParseRest(scheme, "//" + host + path) == Url(scheme, host, path)
  {
    var rest := "//" + host + path;
    assert StartsWith(rest, "//");
    assert rest[2..] == host + path;
    SplitAuthority(host, path);
    assert (host + path)[..|host|] == host;
    assert (host + path)[|host|..] == path;
  }

  /** `scheme://…` is the scheme, a colon and the rest. */
  lemma SplitAtColon(scheme: string, host: string, path: string)
    ensures var s := scheme + "://" + host + path;
      |s| > |scheme| && s[..|scheme|] == scheme && s[|scheme| + 1..] == "//" + host + path
  {
    var s := scheme + "://" + host + path;
    assert s == scheme + (":" + ("//" + host + path));
  }

  /** `scheme://host/dir/` parses into its three parts. */
  lemma ParseBase(scheme: string, host: string, path: string)
    requires |scheme| >= 1 && AllLetters(scheme)
    requires '/' !in host && |path| >= 1 && path[0] == '/'
    ensures Parse(scheme + "://" + host + path) == Url(scheme, host, path)
  {
    var tail := "//" + host + path;
    assert scheme + "://" + host + path == scheme + ":" + tail by {
      SplitAtColon(scheme, host, path);
    }
    SchemeOfBase(scheme, tail);
    SplitAtColon(scheme, host, path);
    ParseAuthority(scheme, host, path);
  }

  lemma FoldTwo(acc: Resolution, x: string, y: string)
    ensures Fold(acc, [x, y]) == ResolveStep(ResolveStep(acc, x), y)
  {
    assert [x, y][1..] == [y];
    assert [y][1..] == [];
    assert Fold(acc, [x, y]) == Fold(ResolveStep(acc, x), [y]);
    assert Fold(ResolveStep(acc, x), [y]) == Fold(ResolveStep(ResolveStep(acc, x), y), []);
  }

  lemma AppendToDirectory(path: string, ref: string)
    requires |path| >= 1 && path[0] == '/' && path[|path| - 1] == '/'
    requires |ref| >= 1 && ref[0] != '/'
    ensures ResolvePath(path, ref) == path + ref
  {
    assert LastSlash(path) == |path| - 1;
    assert path[..|path|] == path;
  }

  /** The first segment, a base URL, resolves to itself from a nil URL. */
  lemma BaseStep(scheme: string, host: string, path: string)
    requires |scheme| >= 1 && AllLetters(scheme)
    requires '/' !in host && |path| >= 1 && path[0] == '/'
    ensures ResolveStep(Unset, scheme + "://" + host + path) == Resolved(Url(scheme, host, path))
  {
    ParseBase(scheme, host, path);
    assert ResolvePath(path, "") == path;
  }

  /** A relative segment resolved against a directory URL extends its path. */
  lemma RelativeStep(b: Url, ref: string)
    requires |b.path| >= 1 && b.path[0] == '/' && b.path[|b.path| - 1] == '/'
    requires |ref| >= 1 && ref[0] != '/' && ':' !in ref
    ensures ResolveStep(Resolved(b), ref) == Resolved(Url(b.scheme, b.host, b.path + ref))
  {
    ParseRelativePath(ref);
    AppendToDirectory(b.path, ref);
  }

  /** Resolving a relative path against a base URL whose path ends in `/` appends
      the path to the base, e.g. `https://host/api/` and `kafka/v3/clusters/X/acls`
      give `https://host/api/kafka/v3/clusters/X/acls`. */
  lemma RelativeSegmentAppends(scheme: string, host: string, path: string, ref: string)
    requires |scheme| >= 1 && AllLetters(scheme)
    requires |host| >= 1 && '/' !in host
    requires |path| >= 1 && path[0] == '/' && path[|path| - 1] == '/'
    requires |ref| >= 1 && ref[0] != '/' && ':' !in ref
    ensures ResolveSegments([scheme + "://" + host + path, ref])
         == Some(scheme + "://" + host + path + ref)
  {
    BaseStep(scheme, host, path);
    ThenRelative(scheme + "://" + host + path, Url(scheme, host, path), ref);
    RenderExtended(scheme, host, path, ref);
  }

  /** The printed URL of a base with a path extended by `ref` is the base's text followed by `ref`. */
  lemma RenderExtended(scheme: string, host: string, path: string, ref: string)
    requires scheme != "" && host != ""
    ensures Render(Url(scheme, host, path + ref)) == scheme + "://" + host + path + ref
  {
    RenderBase(scheme, host, path + ref);
    assert scheme + "://" + host + (path + ref) == scheme + "://" + host + path + ref;
  }

  /** A first segment that resolves to a directory URL, then a relative one. */
  lemma ThenRelative(first: string, b: Url, ref: string)
    requires ResolveStep(Unset, first) == Resolved(b)
    requires |b.path| >= 1 && b.path[0] == '/' && b.path[|b.path| - 1] == '/'
    requires |ref| >= 1 && ref[0] != '/' && ':' !in ref
    ensures ResolveSegments([first, ref]) == Some(Render(Url(b.scheme, b.host, b.path + ref)))
  {
    RelativeStep(b, ref);
    FoldTwo(Unset, first, ref);
  }

  /** A URL with a scheme and a host prints as `scheme://host` and its path. */
  lemma RenderBase(scheme: string, host: string, path: string)
    requires scheme != "" && host != ""
    ensures Render(Url(scheme, host, path)) == scheme + "://" + host + path
  {
    assert scheme + ":" + ("//" + host) == scheme + "://" + host;
  }
  /** A `/`-free string has no `/` to find: the search runs to its end. */
  lemma {:induction false} IndexOfAbsent(s: string, c: char)
    requires c !in s
    ensures IndexOf(s, c) == |s|
  {
    if |s| != 0 {
      assert s[1..] <= s[1..] && forall x | x in s[1..] :: x in s;
      IndexOfAbsent(s[1..], c);
    }
  }

  /** `scheme://host` with no path parses to an empty path, and resolves to itself from a nil URL. */
  lemma BareBaseStep(scheme: string, host: string)
    requires |scheme| >= 1 && AllLetters(scheme)
    requires |host| >= 1 && '/' !in host
    ensures ResolveStep(Unset, scheme + "://" + host) == Resolved(Url(scheme, host, ""))
  {
    ParseBareBase(scheme, host);
  }

  /** `scheme://host` parses into the scheme, the host and an empty path. */
  lemma ParseBareBase(scheme: string, host: string)
    requires |scheme| >= 1 && AllLetters(scheme)
    requires |host| >= 1 && '/' !in host
    ensures Parse(scheme + "://" + host) == Url(scheme, host, "")
  {
    var tail := "//" + host;
    SplitAtColon(scheme, host, "");
    assert scheme + "://" + host == scheme + ":" + tail;
    SchemeOfBase(scheme, tail);
    ParseBareAuthority(scheme, host);
  }

  /** After the scheme, `//host` with no `/` is all authority. */
  lemma ParseBareAuthority(scheme: string, host: string)
    requires scheme != "" && '/' !in host
    ensures ParseRest(scheme, "//" + host) == Url(scheme, host, "")
  {
    assert ("//" + host)[2..] == host;
    IndexOfAbsent(host, '/');
    assert host[..|host|] == host;
  }

  /** A base URL without a path, such as `https://host:443`, gets a `/` before a
      relative segment: with `kafka/v3/clusters/X/acls` it gives
      `https://host:443/kafka/v3/clusters/X/acls`. */
  lemma BareBaseAddsSlash(scheme: string, host: string, ref: string)
    requires |scheme| >= 1 && AllLetters(scheme)
    requires |host| >= 1 && '/' !in host
    requires |ref| >= 1 && ref[0] != '/' && ':' !in ref
    ensures ResolveSegments([scheme + "://" + host, ref]) == Some(scheme + "://" + host + "/" + ref)
  {
    BareBaseStep(scheme, host);
    RootedStep(Url(scheme, host, ""), ref);
    FoldTwo(Unset, scheme + "://" + host, ref);
    RenderExtended(scheme, host, "/", ref);
  }

  /** A relative segment resolved against a URL with an empty path becomes its root-relative path. */
  lemma RootedStep(b: Url, ref: string)
    requires b.path == ""
    requires |ref| >= 1 && ref[0] != '/' && ':' !in ref
    ensures ResolveStep(Resolved(b), ref) == Resolved(Url(b.scheme, b.host, "/" + ref))
  {
    ParseRelativePath(ref);
    assert ResolvePath("", ref) == "/" + ref;
  }
}

=== FILE: wire.dfy ===
/** The JSON shapes exchanged with the control-plane API and the cluster REST
    gateway (the files under internal/client), as plain records. Serialisation itself is
    outside the model: a response reaches the model already decoded, or marked
    as undecodable. */
module Wire {

  datatype LogicalCluster = LogicalCluster(id: string)

  /** Request bodies sent by the client. */
  datatype Body =
    | EmptyObject
    | CreateApiKeyBody(accountId: string, userId: int, description: string, logicalClusters: seq<LogicalCluster>)
    | UpdateApiKeyBody(id: string, accountId: string, description: string, logicalClusters: seq<LogicalCluster>)
    | DeleteApiKeyBody(id: string, accountId: string, logicalClusters: seq<LogicalCluster>)
    | AclBody(acl: AclRequest)

  /** Reply of the token-issuance endpoint. */
  datatype AccessTokenResponse = AccessTokenResponse(error: string, token: string)

  datatype ServiceAccount = ServiceAccount(id: string, userId: int, serviceName: string)

  datatype ServiceAccountResponse = ServiceAccountResponse(users: seq<ServiceAccount>)

  /** An API key as the internal API returns it on creation. */
  datatype ApiKeyInternal = ApiKeyInternal(
    key: string, secret: string, userId: int, id: int,
    description: string, logicalClusters: seq<LogicalCluster>, accountId: string)

  datatype ResourceRef = ResourceRef(id: string)

  datatype ApiKeyIamV2Spec = ApiKeyIamV2Spec(description: string, resource: ResourceRef, owner: ResourceRef)

  /** An API key as the IAM v2 API returns it on read. */
  datatype ApiKeyIamV2 = ApiKeyIamV2(id: string, spec: ApiKeyIamV2Spec)

  /** An access-control entry as sent to the cluster REST gateway. */
  datatype AclRequest = AclRequest(
    resourceType: string, resourceName: string, patternType: string,
    principal: string, host: string, operation: string, permission: string)

  /** An access-control entry as listed by the cluster REST gateway. */
  datatype AclEntry = AclEntry(
    kind: string, clusterId: string, resourceType: string, resourceName: string,
    patternType: string, principal: string, host: string, operation: string, permission: string)

  datatype AclList = AclList(kind: string, data: seq<AclEntry>)
}

=== FILE: wrappers.dfy ===
/** Failure-carrying values shared by every module of the model. */
module Wrappers {

  /** A value that may be absent (Go's nil pointer or missing map key). */
  datatype Option<+T> = None | Some(value: T)

  /** Either a value or an error (Go's `(value, error)` return pair). */
  datatype Result<+T, +E> = Ok(value: T) | Err(error: E)
}
